=== FILE: README.md ===
# Kwality.Datodia container generator, modelled in Dafny

Kwality.Datodia is a C# source generator that builds test-fixture objects. It
scans a compilation for two things:

- classes marked `[TypeBuilder]` that implement `ITypeBuilder<T>`;
- record declarations.

From these it emits two kinds of source:

- one builder class per record (`<Name>TypeBuilder`, under
  `Kwality.Datodia.Builders.Generated`);
- one `Container` class. The container holds a static instance of every builder,
  a `Dictionary<Type, Func<IContainer, object>>` from created type to the
  builder's `Create`, and the runtime operations `Create<T>`, `CreateMany<T>`
  and `Register<T>`.

The library also ships its own small `Container` with a single built-in
builder, for `string`.

This project models that core as pure Dafny functions and proves properties of
the model:

- `Symbols` models the compiler symbols the generator reads and
  `GetFullNamespace`. The method is proved equal to a reference definition.
- `Definitions` models `TypeBuilderDefinition`: its qualified name, the field
  name derived from it, and the two generated lines. Each line is proved to read
  back into the names it was built from.
- `Comparer` models `TypeBuilderDefinitionComparer`. `Equals` is proved to be
  value equality, and `GetHashCode` a base-31 polynomial reduced to 32 bits.
- `Template` holds the container template, split into short constants around
  the two placeholder lines.
- `Generator` models the built-in catalog, the two extraction rules, the
  aggregation of their results, the rendering of the instance and map blocks,
  the placeholder substitution, and the record builder sources.
- `Runtime` models the dispatch table at run time. This covers `Create`,
  `Register` and `CreateMany`, the library container's single entry, and the
  emitted container's dictionary initializer (one `Add` per rendered map line).
- `Text` and `Wrappers` are helpers. They hold ordinal `string.Replace`,
  `string.Join`, `AppendLine` line blocks, and `Option`/`Result`.

Notes on the code as written, which the model follows:

- **No deduplication.** The built-ins, the marked builders and the records are
  concatenated with no deduplication (ContainerGenerator.cs:110-111, 118).
  `NoDeduplication` and `PartialRecordRepeatsDeclarations` state the consequence.
- **Record builders call no constructor.** A record builder's `Create` is
  `return new global::T();` (ContainerGenerator.cs:147), whatever the record's
  constructor parameters.
- **Record namespace.** Record builders live in
  `Kwality.Datodia.Builders.Generated`, followed by `.` and the record's full
  namespace when that is not empty (ContainerGenerator.cs:214, 227-228). The
  full namespace is the record's namespace followed by its containing types
  (SymbolExtensions.cs:31-64): for `namespace A; class Outer { record R; }` the
  builder lives in `Kwality.Datodia.Builders.Generated.A.Outer`.
- **Comparer parameters.** `TypeBuilderDefinition.cs` declares only the three
  names. `TypeBuilderDefinitionComparer` also reads `Parameters` and each
  parameter's `Type`. The model gives every definition a parameter list, which
  both extraction rules leave empty, so that the comparer can be modelled as
  written. How two parameters compare is an assumption (see "## Left out").

Facts the proofs bring out about the code as written:

- **Empty namespace.** A marked builder declared in the global namespace gets
  the namespace `""`. Its qualified name therefore begins with `.`
  (`FqNameSplitsBack`), and its instance line declares a field of type `.Name`,
  which is not C# (`EmptyNamespaceInstanceLine`).
- **Field-name collisions.** The field name turns every `.` into `_`, so two
  builders whose qualified names differ only there share one field name
  (`InstanceNameCollision`). The rendered container then declares that field
  twice, which C# rejects.
- **Partial records.** A record declared in two parts is collected twice. This
  gives two builder sources with the same hint name (`NoDeduplication`), which
  the host's `AddSource` rejects (see "## Left out"). The two sources also
  declare the same builder class twice. The rendered container has two
  identical instance lines, so it declares the same field twice, and two map
  entries for the same type (`PartialRecordRepeatsDeclarations`). The build
  fails before any container exists. The dictionary initializer's second `Add`
  of that type would throw, but it never runs.
- **Type identity.** `typeof` resolution is a parameter `resolve`. Whether
  `string` and `System.String` are the same key is therefore left to the
  caller. For rendered text that compiles, the emitted container is
  constructed exactly when the resolved keys are distinct
  (`EmittedContainerSucceedsIff`).
- **Create leaves the map alone.** `Create` and `CreateMany` are functions of an
  immutable map, so they leave it unchanged by construction.

## Model

| member | source | states |
|---|---|---|
| Symbols.GetFullNamespace | app/src/Kwality.Datodia.Roslyn/Extensions/Symbols/SymbolExtensions.cs:31-64 | The two stack walks give the reference definition: null for a missing or global namespace; otherwise the namespace names outermost first, then the containing types outermost first, joined by `.` |
| Symbols.NamespacePathOfDeclared | app/src/Kwality.Datodia.Roslyn/Extensions/Symbols/SymbolExtensions.cs:41-46 | Walking the namespace of `namespace A.B.C` outwards, innermost first, and reversing gives back `A`, `B`, `C` |
| Symbols.TypePathOfDeclared | app/src/Kwality.Datodia.Roslyn/Extensions/Symbols/SymbolExtensions.cs:49-55 | Walking the containing types outwards and reversing gives them outermost first |
| Symbols.GlobalNamespaceIsNull | app/src/Kwality.Datodia.Roslyn/Extensions/Symbols/SymbolExtensions.cs:33-38 | A type in the global namespace (or with no namespace) has a null full namespace even when nested in types |
| Symbols.FullNamespaceOfDeclared | app/src/Kwality.Datodia.Roslyn/Extensions/Symbols/SymbolExtensions.cs:58-63 | Declared in `namespace A.B` and nested in `X.Y`, the full namespace is `A.B.X.Y`; not nested, it is `A.B` |
| Symbols.OwnNameUnused | app/src/Kwality.Datodia.Roslyn/Extensions/Symbols/SymbolExtensions.cs:31-64 | The result depends only on the containing namespace and the containing types |
| Definitions.FqName | app/src/Kwality.Datodia.Roslyn/Generators/Models/TypeBuilderDefinition.cs:44 | Definition of the qualified builder name; properties in `FqNameSplitsBack` and `InstanceNameCollision` |
| Definitions.InstanceName | app/src/Kwality.Datodia.Roslyn/Generators/Models/TypeBuilderDefinition.cs:45 | Definition of the static field name; properties in `ReplaceDotPointwise`, `InstanceNameShape`, `InstanceNameNoNewChars` and `InstanceNameConflatesDots` |
| Definitions.FormatAsInstance | app/src/Kwality.Datodia.Roslyn/Generators/Models/TypeBuilderDefinition.cs:47-50 | Definition of the instance line; properties in `ParseFormatAsInstance`, `DeclaredIsReferenced` and `FormattedLinesAreSingle` |
| Definitions.FormatAsMapEntry | app/src/Kwality.Datodia.Roslyn/Generators/Models/TypeBuilderDefinition.cs:52-55 | Definition of the map entry line; properties in `ParseFormatAsMapEntry`, `DeclaredIsReferenced` and `FormattedLinesAreSingle` |
| Definitions.ReplaceDotPointwise | app/src/Kwality.Datodia.Roslyn/Generators/Models/TypeBuilderDefinition.cs:45 | `Replace(".", "_")` keeps the length and every character except `.`, which becomes `_` |
| Definitions.InstanceNameShape | app/src/Kwality.Datodia.Roslyn/Generators/Models/TypeBuilderDefinition.cs:45 | The field name has no `.`, ends in `_Instance`, and matches the qualified name position by position with `.` turned into `_` |
| Definitions.InstanceNameNoNewChars | app/src/Kwality.Datodia.Roslyn/Generators/Models/TypeBuilderDefinition.cs:45 | Any character other than `_` and those of `_Instance` appears in the field name only if it appears in the qualified name |
| Definitions.FqNameSplitsBack | app/src/Kwality.Datodia.Roslyn/Generators/Models/TypeBuilderDefinition.cs:44 | The last `.` of the qualified name separates the namespace from the builder name; an empty namespace leaves a leading `.` |
| Definitions.EmptyNamespaceInstanceLine | app/src/Kwality.Datodia.Roslyn/Generators/Models/TypeBuilderDefinition.cs:44-50 | With an empty namespace, the instance line declares and constructs the type `.Name`, which is not a C# type name |
| Definitions.InstanceNameConflatesDots | app/src/Kwality.Datodia.Roslyn/Generators/Models/TypeBuilderDefinition.cs:45 | Qualified names that differ only in `.` against `_` give the same field name |
| Definitions.InstanceNameCollision | app/src/Kwality.Datodia.Roslyn/Generators/Models/TypeBuilderDefinition.cs:44-45 | `A.B.X` and `A_B.X` are different builders with the same field name |
| Definitions.ParseInstanceLine | app/src/Kwality.Datodia.Roslyn/Generators/Models/TypeBuilderDefinition.cs:49 | Any line of the instance declaration's shape, with space-free names, reads back as its type and field name |
| Definitions.ParseFormatAsInstance | app/src/Kwality.Datodia.Roslyn/Generators/Models/TypeBuilderDefinition.cs:47-50 | The instance line reads back as the qualified name and the field name |
| Definitions.ParseMapLine | app/src/Kwality.Datodia.Roslyn/Generators/Models/TypeBuilderDefinition.cs:54 | Any map-entry-shaped line reads back as its type text and field name, whatever the type text holds |
| Definitions.ParseFormatAsMapEntry | app/src/Kwality.Datodia.Roslyn/Generators/Models/TypeBuilderDefinition.cs:52-55 | The map entry reads back as the created type's text and the field name |
| Definitions.DeclaredIsReferenced | app/src/Kwality.Datodia.Roslyn/Generators/Models/TypeBuilderDefinition.cs:47-55 | The field the instance line declares is the field the map entry references |
| Definitions.FormattedLinesAreSingle | app/src/Kwality.Datodia.Roslyn/Generators/Models/TypeBuilderDefinition.cs:47-55 | Neither generated line contains a line break |
| Comparer.Equals | app/src/Kwality.Datodia.Roslyn/Generators/Comparers/TypeBuilderDefinitionComparer.cs:31-45 | Definition of `Equals`; properties in `NullCases`, `EqualsFieldwise`, `EqualsIsValueEquality` and `EqualsIsEquivalence` |
| Comparer.GetHashCode | app/src/Kwality.Datodia.Roslyn/Generators/Comparers/TypeBuilderDefinitionComparer.cs:47-59 | Definition of `GetHashCode`; properties in `HashIsPolynomial`, `NullHash` and `EqualsImpliesEqualHash` |
| Comparer.WrapMix | app/src/Kwality.Datodia.Roslyn/Generators/Comparers/TypeBuilderDefinitionComparer.cs:49-53 | Under `unchecked`, wrapping after each `hash * 31 + part` gives what wrapping once at the end gives |
| Comparer.AggregateIsPolynomial | app/src/Kwality.Datodia.Roslyn/Generators/Comparers/TypeBuilderDefinitionComparer.cs:56-57 | The `Aggregate` over the parameters is the wrapped base-31 number of the seed followed by each parameter type's hash (0 for a null type) |
| Comparer.HashIsPolynomial | app/src/Kwality.Datodia.Roslyn/Generators/Comparers/TypeBuilderDefinitionComparer.cs:47-59 | The hash is the 32-bit reduction of the base-31 number with digits 17, FullTypeName, BuilderName, Namespace and the parameter types, in that order |
| Comparer.NullHash | app/src/Kwality.Datodia.Roslyn/Generators/Comparers/TypeBuilderDefinitionComparer.cs:51-56 | The hash of null is 17·31³ = 506447 |
| Comparer.SequenceEqualIsEquality | app/src/Kwality.Datodia.Roslyn/Generators/Comparers/TypeBuilderDefinitionComparer.cs:44 | `SequenceEqual` holds exactly when the parameter lists are equal |
| Comparer.NullCases | app/src/Kwality.Datodia.Roslyn/Generators/Comparers/TypeBuilderDefinitionComparer.cs:33-41 | Two nulls are equal; null and a definition are unequal in either order |
| Comparer.EqualsFieldwise | app/src/Kwality.Datodia.Roslyn/Generators/Comparers/TypeBuilderDefinitionComparer.cs:43-44 | Two definitions are equal exactly when the three names agree and the parameter lists agree in length and at every position |
| Comparer.EqualsIsValueEquality | app/src/Kwality.Datodia.Roslyn/Generators/Comparers/TypeBuilderDefinitionComparer.cs:31-45 | `Equals` holds exactly when the two possibly-null definitions are the same value |
| Comparer.EqualsIsEquivalence | app/src/Kwality.Datodia.Roslyn/Generators/Comparers/TypeBuilderDefinitionComparer.cs:31-45 | `Equals` is reflexive, symmetric and transitive |
| Comparer.EqualsImpliesEqualHash | app/src/Kwality.Datodia.Roslyn/Generators/Comparers/TypeBuilderDefinitionComparer.cs:31-59 | Equal definitions hash alike, for any string and type hash functions |
| Template.MarkerFacts | app/src/Kwality.Datodia.Roslyn/Generators/ContainerGenerator.cs:63-64 | Both placeholders contain `#` and no line break, and the map placeholder is the shorter |
| Template.TemplateLacksHash | app/src/Kwality.Datodia.Roslyn/Generators/ContainerGenerator.cs:49-95 | Apart from the two placeholder lines, the template contains no `#` |
| Generator.MarkedBuilder | app/src/Kwality.Datodia.Roslyn/Generators/ContainerGenerator.cs:176-197 | Definition of the marked-class transformation; properties in `MarkedBuilderRule` and `MarkedBuilderNamespace` |
| Generator.RecordBuilder | app/src/Kwality.Datodia.Roslyn/Generators/ContainerGenerator.cs:212-231 | Definition of the record transformation; properties in `RecordBuilderRule`, `RecordBuilderNamespace` and `PersonBuilder` |
| Generator.MarkedBuilderRule | app/src/Kwality.Datodia.Roslyn/Generators/ContainerGenerator.cs:176-197 | A marked class yields a definition exactly when it is a named type implementing `ITypeBuilder<T>`; the definition creates `T` and is named after the class |
| Generator.MarkedBuilderNamespace | app/src/Kwality.Datodia.Roslyn/Generators/ContainerGenerator.cs:193-196 | A marked builder in `namespace A.B` nested in `X.Y` lives in `A.B.X.Y`; in the global namespace its namespace is empty |
| Generator.RecordBuilderRule | app/src/Kwality.Datodia.Roslyn/Generators/ContainerGenerator.cs:212-231 | A record yields a definition exactly when its declared symbol is a named type; the builder is `<Name>TypeBuilder` creating the record's display string |
| Generator.RecordBuilderNamespace | app/src/Kwality.Datodia.Roslyn/Generators/ContainerGenerator.cs:214-230 | A record's builder lives in `Kwality.Datodia.Builders.Generated`, followed by `.A.B.X.Y` when the record is declared in `namespace A.B` inside `X.Y` |
| Generator.DefinedMembers | app/src/Kwality.Datodia.Roslyn/Generators/ContainerGenerator.cs:238 | `OfType` keeps a definition exactly when some item held it |
| Generator.DefinedAppend | app/src/Kwality.Datodia.Roslyn/Generators/ContainerGenerator.cs:118 | Skipping nulls distributes over concatenation |
| Generator.WhereNotNullKeepsDefinitions | app/src/Kwality.Datodia.Roslyn/Generators/ContainerGenerator.cs:168 | The not-null filter keeps every definition, in order, and nothing else |
| Generator.AggregationOrder | app/src/Kwality.Datodia.Roslyn/Generators/ContainerGenerator.cs:110-118 | The container is rendered from the built-ins, then the marked builders, then the records, each in syntax order, with the count the sum of the three |
| Generator.SystemCatalog | app/src/Kwality.Datodia.Roslyn/Generators/ContainerGenerator.cs:97-102 | The built-ins are `string`, `System.Guid`, `bool`, in that order, all in `Kwality.Datodia.Builders.System` |
| Generator.EmptyCompilation | app/src/Kwality.Datodia.Roslyn/Generators/ContainerGenerator.cs:118 | With no marked class and no record, the container is rendered from the three built-ins alone |
| Generator.NoDeduplication | app/src/Kwality.Datodia.Roslyn/Generators/ContainerGenerator.cs:110-118 | A record collected twice gives its definition twice and two builder sources with the same hint name |
| Generator.PersonBuilder | app/src/Kwality.Datodia.Roslyn/Generators/ContainerGenerator.cs:224-230 | `record Person` in the global namespace gets `PersonTypeBuilder` in `Kwality.Datodia.Builders.Generated` |
| Generator.PersonScenario | app/src/Kwality.Datodia.Roslyn/Generators/ContainerGenerator.cs:110-118 | The compilation `public sealed record Person;` gives four definitions, the record's last |
| Generator.CreateTypeBuilderInstances | app/src/Kwality.Datodia.Roslyn/Generators/ContainerGenerator.cs:234-244 | Definition of the instance block; properties in `InstancesAreLines`, `InstancesBlockLayout` and `InstancesLackMapMarker` |
| Generator.CreateTypeBuilderMap | app/src/Kwality.Datodia.Roslyn/Generators/ContainerGenerator.cs:246-260 | Definition of the map block; properties in `MapBlockIsLines`, `MapBlockLayout` and `Runtime.RenderedEntriesAreInitializerEntries` |
| Generator.InstancesAreLines | app/src/Kwality.Datodia.Roslyn/Generators/ContainerGenerator.cs:234-260 | Both blocks are one `AppendLine` per non-null definition, in order |
| Generator.InstancesBlockLayout | app/src/Kwality.Datodia.Roslyn/Generators/ContainerGenerator.cs:234-244 | Split into lines, the instance block is exactly one `FormatAsInstance` line per non-null definition |
| Generator.MapBlockIsLines | app/src/Kwality.Datodia.Roslyn/Generators/ContainerGenerator.cs:246-260 | The map block is the header, `{`, the entry lines and `};`, each ended by a line break |
| Generator.MapBlockLayout | app/src/Kwality.Datodia.Roslyn/Generators/ContainerGenerator.cs:246-260 | Split into lines, the map block is the header, `{`, one `FormatAsMapEntry` line per non-null definition, and `};` |
| Generator.MapFrameLines | app/src/Kwality.Datodia.Roslyn/Generators/ContainerGenerator.cs:249-257 | The header, `{` and `};` are single lines |
| Generator.GenerateContainer | app/src/Kwality.Datodia.Roslyn/Generators/ContainerGenerator.cs:116-125 | Definition of the container source; properties in `AggregationOrder`, `ContainerLayout` and `GenerateContainerLayout` |
| Generator.ContainerLayout | app/src/Kwality.Datodia.Roslyn/Generators/ContainerGenerator.cs:122-123 | When the instance block holds no map placeholder, the two replacements put the instance block and the map block in place of the two placeholder lines and change nothing else |
| Generator.GenerateContainerLayout | app/src/Kwality.Datodia.Roslyn/Generators/ContainerGenerator.cs:116-125 | `Container.g.cs` is the template head, the instance block, the map block and the template tail, rendered from the built-ins plus the delivered definitions |
| Generator.InstancesLackMapMarker | app/src/Kwality.Datodia.Roslyn/Generators/ContainerGenerator.cs:122-123 | An instance block built from names without `#` cannot contain the map placeholder, so the second replacement hits only the placeholder line |
| Generator.GenerateTypeBuilder | app/src/Kwality.Datodia.Roslyn/Generators/ContainerGenerator.cs:128-154 | Definition of the record builder source; properties in `TypeBuilderSourceShape`, `ParseTypeBuilderSource` and `NoDeduplication` |
| Generator.Generate | app/src/Kwality.Datodia.Roslyn/Generators/ContainerGenerator.cs:104-126 | Definition of one generator run, the record builder sources and the container; properties in `GenerateCoversRecords` |
| Generator.GenerateCoversRecords | app/src/Kwality.Datodia.Roslyn/Generators/ContainerGenerator.cs:107-118 | Every record that yields a definition gets exactly one builder source, in syntax order, and that definition is also one the container is rendered from |
| Generator.TypeBuilderSourceShape | app/src/Kwality.Datodia.Roslyn/Generators/ContainerGenerator.cs:128-154 | Nothing is emitted for null; otherwise one source named `<Namespace>.<BuilderName>.g.cs` that declares the builder class in its namespace |
| Generator.ParseTypeBuilderSource | app/src/Kwality.Datodia.Roslyn/Generators/ContainerGenerator.cs:136-142 | A builder source reads back as the definition's namespace and builder name |
| Runtime.Create | app/src/Kwality.Datodia/Container.cs:45-50 | `Create<T>` succeeds exactly when `T` has an entry, returning one call of that factory; otherwise it fails with "No resolver registered for type '…'." |
| Runtime.LibraryTypeBuilders | app/src/Kwality.Datodia/Container.cs:34-37 | A fresh library container has exactly one entry, for `string` |
| Runtime.LibraryCreate | app/src/Kwality.Datodia/Container.cs:34-50 | A fresh library container creates a string (a new Guid's text) and throws for any other type |
| Runtime.Register | app/src/Kwality.Datodia.Roslyn/Generators/ContainerGenerator.cs:90-93 | `Register<T>` adds or overwrites the entry for `T`, keeps every other entry, and leaves `RepeatCount` alone |
| Runtime.RegisterThenCreate | app/tests/Kwality.Datodia.Usage.Tests/Container.Tests.cs:92-103 | After `Register<T>(f)`, `Create<T>` invokes `f`, whatever was registered before |
| Runtime.RegisterKeepsOthers | app/src/Kwality.Datodia.Roslyn/Generators/ContainerGenerator.cs:90-93 | `Register<T>` does not change `Create<U>` for any other `U` |
| Runtime.CreateMany | app/src/Kwality.Datodia.Roslyn/Generators/ContainerGenerator.cs:80-83 | Enumerated to the end, `CreateMany<T>` yields `max(0, RepeatCount)` results, the i-th being `Create<T>` at the i-th call; it is empty when `RepeatCount` is not positive, and throws the missing-builder exception otherwise when `T` has no entry |
| Runtime.DictionaryInitializer | app/src/Kwality.Datodia.Roslyn/Generators/ContainerGenerator.cs:249-257 | When the collection initializer completes, every rendered entry's type maps to its builder field and no other key is present; when it throws, the key is one of the entries' keys |
| Runtime.InitializerSucceedsIffDistinct | app/src/Kwality.Datodia.Roslyn/Generators/ContainerGenerator.cs:249-257 | The initializer completes exactly when no two entries resolve to the same type |
| Runtime.InitializerSize | app/src/Kwality.Datodia.Roslyn/Generators/ContainerGenerator.cs:249-257 | With distinct keys, the dictionary holds exactly one entry per definition |
| Runtime.EmittedContainer | app/src/Kwality.Datodia.Roslyn/Generators/ContainerGenerator.cs:69 | Constructing the emitted container, assuming its text compiles, yields the initializer's map and `RepeatCount` 3 |
| Runtime.DefaultRepeatCountMatchesTemplate | app/src/Kwality.Datodia.Roslyn/Generators/ContainerGenerator.cs:69 | The template initialises `RepeatCount` with ` = 3;`, the digit being the model's `DefaultRepeatCount` |
| Runtime.EmittedContainerSucceedsIff | app/src/Kwality.Datodia.Roslyn/Generators/ContainerGenerator.cs:116-120 | Assuming the rendered text compiles, the emitted container can be constructed exactly when the built-ins and the delivered definitions resolve to distinct types |
| Runtime.EmittedCreate | app/src/Kwality.Datodia.Roslyn/Generators/ContainerGenerator.cs:72-74 | In a constructed emitted container, `Create` for any builder's type invokes that builder's static field |
| Runtime.RenderedEntriesAreInitializerEntries | app/src/Kwality.Datodia.Roslyn/Generators/Models/TypeBuilderDefinition.cs:52-55 | Each rendered map line reads back as the type text and field name the initializer model adds |
| Runtime.PartialRecordRepeatsDeclarations | app/src/Kwality.Datodia.Roslyn/Generators/ContainerGenerator.cs:200-231 | A record declared twice gives two identical instance lines, declaring one field twice, and two map entries with one type, so the initializer would throw at the second `Add` whatever `typeof` resolves to |
| Runtime.PersonContainer | app/tests/Kwality.Datodia.Tests/Generators/ContainerGeneratorTests.cs:42 | For the generator input `public sealed record Person;` (aggregated as in ContainerGenerator.cs:110-118), with the four types distinct, the emitted container has four entries and creating a `Person` invokes `PersonTypeBuilder`'s field |

## Left out

- Incremental caching is not modelled: tracking names, cached-step reuse and the
  generator driver. The comparer is modelled as a function, but nothing in
  `ContainerGenerator.cs` wires it into a pipeline.
- The compiler's syntax and semantic APIs are abstracted into the `Symbol`
  datatype. This covers the syntax predicates, `GetDeclaredSymbol`,
  `GetInterface`, `ToDisplayString` and `TypeArguments`. Display strings are
  given, not computed.
- Cancellation (`ThrowIfCancellationRequested`) is left out. It aborts the run
  and produces no output.
- The marker attribute source (`AddTypeBuilderMarkerAttribute`,
  `Code/Definitions/Attribute.cs`) is not part of this model.
- `SourceText`, UTF-8 encoding and `AddSource`'s handling of a repeated hint
  name are left out. The host rejects a second source with the same hint name
  and the generator run fails. `NoDeduplication` shows when two sources share a
  hint name, and `PartialRecordRepeatsDeclarations` shows the repeated
  declarations the container text would hold.
- `Environment.NewLine` is fixed to `"\n"`, as are the line breaks inside the
  raw template literals.
- String and type hash codes are per-process values, so they are parameters of
  `GetHashCode`.
- `typeof` and `Type.ToString()` are the parameter `resolve` and a type key's
  name.
- Comparer.SequenceEqualIsEquality, Comparer.EqualsFieldwise and
  Comparer.EqualsIsValueEquality assume that two parameters compare by value,
  as a pair of a name and an optional type name. `TypeBuilderDefinition.cs` declares no
  `Parameters`, so the element type that `SequenceEqual` compares is not in the
  code. Under reference equality, or equality by type alone, `Equals` would not
  be value equality.
- Runtime.EmittedContainer, Runtime.EmittedContainerSucceedsIff: model the
  constructor of the emitted container, assuming the rendered text compiles. C#
  compilation is not modelled. The text does not compile when two builders
  share a field name (`InstanceNameCollision`, `PartialRecordRepeatsDeclarations`)
  or when a marked builder sits in the global namespace
  (`EmptyNamespaceInstanceLine`). The model still gives those inputs a
  container or an initializer failure.
- What factories produce is left out: a factory call is the caller's `invoke`
  applied to the factory and a call index. Also not modelled are the container
  passed to a factory, factories that call back into the container, and the
  `(T)` cast failing.
- Runtime.CreateMany: models a complete enumeration of the lazy sequence, not a
  partial one, and not a `Register` made while enumerating.
- Generator.TypeBuilderSourceShape: reads back only the namespace and the class
  name of a record builder source, not every line of it. The full text is
  defined by `Generator.TypeBuilderSource`.
- Generator.GenerateContainerLayout: assumes no qualified builder name contains
  `#`, which C# identifiers and namespaces cannot.
- The built-in builder classes (`StringTypeBuilder`, `GuidTypeBuilder`,
  `BoolTypeBuilder`), `IContainer`, the other `DatodiaException` constructors
  and the benchmarks are not part of this model.
- Some tests expect behaviour the code as written does not have, and are not
  followed:
  - `Kwality.Datodia.Tests/Container.Tests.cs` expects an API the library
    `Container.cs` does not have: `Register<string>` taking a `Func<object>`
    (line 39), `CreateMany<T>()` (lines 52, 68) and `RepeatCount` (line 64);
  - the expected output in `ContainerGeneratorTests.cs` has no built-ins and a
    `Func<object>` `Register`;
  - `Kwality.Datodia.Usage.Tests/Container.Tests.cs:48-77` expects distinct
    `City(int ZipCode, string Name)` and `FullName` records. The generated
    `return new global::T();` (ContainerGenerator.cs:147) needs a
    parameterless constructor, which neither record has.

=== FILE: comparer.dfy ===
/**
  `TypeBuilderDefinitionComparer` (TypeBuilderDefinitionComparer.cs): null-aware
  structural equality of definitions and the matching 32-bit hash.
 */
module Comparer {
  import opened Wrappers
  import opened Definitions

  /** A C# `int`. */
  type Int32 = x: int | -0x8000_0000 <= x < 0x8000_0000

  const TwoTo32: int := 0x1_0000_0000

  /** What an `unchecked` 32-bit result keeps of the exact integer: its value modulo 2^32, read as signed. */
  function Wrap32(x: int): Int32
  {
    (x + 0x8000_0000) % TwoTo32 - 0x8000_0000
  }

  /** `Enumerable.SequenceEqual` on the parameter lists: same length, equal element by element, in order. */
  function SequenceEqual(xs: seq<Parameter>, ys: seq<Parameter>): bool
  {
    if |xs| == 0 then |ys| == 0
    else |ys| > 0 && xs[0] == ys[0] && SequenceEqual(xs[1..], ys[1..])
  }

  /** `Equals(x, y)`: two nulls are equal, a null never equals a definition, and definitions compare field by field. */
  function Equals(x: Option<TypeBuilderDefinition>, y: Option<TypeBuilderDefinition>): bool
  {
    if x.None? && y.None? then true
    else if x.None? || y.None? then false
    else
      x.value.fullTypeName == y.value.fullTypeName
      && x.value.builderName == y.value.builderName
      && x.value.namespace == y.value.namespace
      && SequenceEqual(x.value.parameters, y.value.parameters)
  }

  /** One step of the hash: `hash * 31 + part`, wrapping at 32 bits. */
  function Mix(hash: Int32, part: Int32): Int32
  {
    Wrap32(hash * 31 + part)
  }

  /** The hash contribution of a parameter: its type's hash, or 0 for a null type. */
  function ParameterPart(p: Parameter, typeHash: string -> Int32): Int32
  {
    match p.parameterType
    case Some(t) => typeHash(t)
    case None => 0
  }

  /** `Enumerable.Aggregate(parameters, seed, (current, p) => current * 31 + part(p))`. */
  function AggregateParameters(seed: Int32, parameters: seq<Parameter>, typeHash: string -> Int32): Int32
    decreases |parameters|
  {
    if |parameters| == 0 then seed
    else AggregateParameters(Mix(seed, ParameterPart(parameters[0], typeHash)), parameters[1..], typeHash)
  }

  /**
    `GetHashCode(obj)`. String and type hashes are per-process values the model
    does not fix, so they are parameters.
   */
  function GetHashCode(obj: Option<TypeBuilderDefinition>, stringHash: string -> Int32, typeHash: string -> Int32): Int32
  {
    var hash := 17;
    var hash := Mix(hash, if obj.Some? then stringHash(obj.value.fullTypeName) else 0);
    var hash := Mix(hash, if obj.Some? then stringHash(obj.value.builderName) else 0);
    var hash := Mix(hash, if obj.Some? then stringHash(obj.value.namespace) else 0);
    AggregateParameters(hash, if obj.Some? then obj.value.parameters else [], typeHash)
  }

  // ---------------------------------------------------------------------------
  // Reference definition of the hash

  /** The parts the hash folds in, in order: the three names, then each parameter's type. */
  function HashParts(obj: Option<TypeBuilderDefinition>, stringHash: string -> Int32, typeHash: string -> Int32): seq<int>
  {
    match obj
    case None => [0, 0, 0]
    case Some(d) =>
      [stringHash(d.fullTypeName), stringHash(d.builderName), stringHash(d.namespace)]
      + seq(|d.parameters|, i requires 0 <= i < |d.parameters| => ParameterPart(d.parameters[i], typeHash))
  }

  /** The base-31 number `seed, parts[0], parts[1], ...` computed exactly, without wrapping. */
  function Polynomial(seed: int, parts: seq<int>): int
    decreases |parts|
  {
    if |parts| == 0 then seed else Polynomial(seed * 31 + parts[0], parts[1..])
  }

  // ---------------------------------------------------------------------------
  // Properties

  lemma {:induction false} WrapIdentity(x: int)
    requires -0x8000_0000 <= x < 0x8000_0000
    ensures Wrap32(x) == x
  {
  }

  lemma {:induction false} WrapShift(x: int, k: int)
    ensures Wrap32(x + TwoTo32 * k) == Wrap32(x)
  {
    var y := x + 0x8000_0000;
    var r := y % TwoTo32;
    var q := y / TwoTo32;
    assert y == TwoTo32 * q + r;
    assert y + TwoTo32 * k == TwoTo32 * (q + k) + r;
  }

  /** Wrapping after every step gives the same result as wrapping once at the end. */
  lemma {:induction false} WrapMix(a: int, part: int)
    ensures Wrap32(Wrap32(a) * 31 + part) == Wrap32(a * 31 + part)
  {
    var y := a + 0x8000_0000;
    var q := y / TwoTo32;
    assert Wrap32(a) == a - TwoTo32 * q;
    assert Wrap32(a) * 31 + part == a * 31 + part + TwoTo32 * (-31 * q);
    WrapShift(a * 31 + part, -31 * q);
  }

  lemma {:induction false} AggregateIsPolynomial(seed: int, parameters: seq<Parameter>, typeHash: string -> Int32)
    ensures AggregateParameters(Wrap32(seed), parameters, typeHash)
         == Wrap32(Polynomial(seed, seq(|parameters|, i requires 0 <= i < |parameters| => ParameterPart(parameters[i], typeHash))))
    decreases |parameters|
  {
    var parts := seq(|parameters|, i requires 0 <= i < |parameters| => ParameterPart(parameters[i], typeHash));
    if |parameters| > 0 {
      var part := ParameterPart(parameters[0], typeHash);
      WrapMix(seed, part);
      assert Mix(Wrap32(seed), part) == Wrap32(seed * 31 + part);
      AggregateIsPolynomial(seed * 31 + part, parameters[1..], typeHash);
      assert parts[1..] == seq(|parameters[1..]|, i requires 0 <= i < |parameters[1..]| => ParameterPart(parameters[1..][i], typeHash));
    }
  }

  /**
    The hash is the base-31 number with digits 17, FullTypeName, BuilderName,
    Namespace and then each parameter type, in that order, reduced to a signed
    32-bit value: the same as computing exactly and wrapping once.
   */
  lemma {:induction false} HashIsPolynomial(obj: Option<TypeBuilderDefinition>, stringHash: string -> Int32, typeHash: string -> Int32)
    ensures GetHashCode(obj, stringHash, typeHash) == Wrap32(Polynomial(17, HashParts(obj, stringHash, typeHash)))
  {
    var parts := HashParts(obj, stringHash, typeHash);
    var p0, p1, p2 := parts[0], parts[1], parts[2];
    var ps := if obj.Some? then obj.value.parameters else [];
    var rest := seq(|ps|, i requires 0 <= i < |ps| => ParameterPart(ps[i], typeHash));
    assert parts == [p0, p1, p2] + rest;
    var seed := ((17 * 31 + p0) * 31 + p1) * 31 + p2;
    assert Polynomial(17, parts) == Polynomial(seed, rest) by {
      PolynomialPrefix(17, p0, p1, p2, rest);
    }
    var h1 := Mix(17, p0);
    assert h1 == Wrap32(17 * 31 + p0) by {
      WrapIdentity(17);
      WrapMix(17, p0);
    }
    var h2 := Mix(h1, p1);
    assert h2 == Wrap32((17 * 31 + p0) * 31 + p1) by {
      WrapMix(17 * 31 + p0, p1);
    }
    var h3 := Mix(h2, p2);
    assert h3 == Wrap32(seed) by {
      WrapMix((17 * 31 + p0) * 31 + p1, p2);
    }
    assert GetHashCode(obj, stringHash, typeHash) == AggregateParameters(h3, ps, typeHash);
    AggregateIsPolynomial(seed, ps, typeHash);
  }

  lemma {:induction false} PolynomialPrefix(seed: int, p0: int, p1: int, p2: int, rest: seq<int>)
    ensures Polynomial(seed, [p0, p1, p2] + rest) == Polynomial(((seed * 31 + p0) * 31 + p1) * 31 + p2, rest)
  {
    var parts := [p0, p1, p2] + rest;
    assert parts[1..] == [p1, p2] + rest;
    assert parts[1..][1..] == [p2] + rest;
    assert parts[1..][1..][1..] == rest;
    assert Polynomial(seed, parts) == Polynomial(seed * 31 + p0, parts[1..]);
    assert Polynomial(seed * 31 + p0, parts[1..]) == Polynomial((seed * 31 + p0) * 31 + p1, parts[1..][1..]);
    assert Polynomial((seed * 31 + p0) * 31 + p1, parts[1..][1..])
        == Polynomial(((seed * 31 + p0) * 31 + p1) * 31 + p2, parts[1..][1..][1..]);
  }

  /** The hash of `null` is the constant 17 * 31 * 31 * 31. */
  lemma {:induction false} NullHash(stringHash: string -> Int32, typeHash: string -> Int32)
    ensures GetHashCode(None, stringHash, typeHash) == 17 * 31 * 31 * 31
    ensures GetHashCode(None, stringHash, typeHash) == 506447
  {
  }

  /** Element-wise comparison of parameter lists is exactly list equality. */
  lemma {:induction false} SequenceEqualIsEquality(xs: seq<Parameter>, ys: seq<Parameter>)
    ensures SequenceEqual(xs, ys) <==> xs == ys
    decreases |xs|
  {
    if |xs| > 0 && |ys| > 0 {
      SequenceEqualIsEquality(xs[1..], ys[1..]);
      assert xs == [xs[0]] + xs[1..];
      assert ys == [ys[0]] + ys[1..];
    }
  }

  /** Two nulls are equal; a null never equals a definition, in either order. */
  lemma {:induction false} NullCases(d: TypeBuilderDefinition)
    ensures Equals(None, None)
    ensures !Equals(None, Some(d)) && !Equals(Some(d), None)
  {
  }

  /**
    Two definitions are equal exactly when their three names are equal and their
    parameter lists have the same length and equal elements at every position.
   */
  lemma {:induction false} EqualsFieldwise(a: TypeBuilderDefinition, b: TypeBuilderDefinition)
    ensures Equals(Some(a), Some(b)) <==>
      && a.fullTypeName == b.fullTypeName
      && a.builderName == b.builderName
      && a.namespace == b.namespace
      && |a.parameters| == |b.parameters|
      && forall i | 0 <= i < |a.parameters| :: a.parameters[i] == b.parameters[i]
  {
    SequenceEqualIsEquality(a.parameters, b.parameters);
  }

  /** The comparer is value equality: it holds exactly when the two (possibly null) definitions are the same value. */
  lemma {:induction false} EqualsIsValueEquality(x: Option<TypeBuilderDefinition>, y: Option<TypeBuilderDefinition>)
    ensures Equals(x, y) <==> x == y
  {
    if x.Some? && y.Some? {
      SequenceEqualIsEquality(x.value.parameters, y.value.parameters);
    }
  }

  /** `Equals` is reflexive, symmetric and transitive. */
  lemma {:induction false} EqualsIsEquivalence(x: Option<TypeBuilderDefinition>, y: Option<TypeBuilderDefinition>, z: Option<TypeBuilderDefinition>)
    ensures Equals(x, x)
    ensures Equals(x, y) <==> Equals(y, x)
    ensures Equals(x, y) && Equals(y, z) ==> Equals(x, z)
  {
    EqualsIsValueEquality(x, x);
    EqualsIsValueEquality(x, y);
    EqualsIsValueEquality(y, x);
    EqualsIsValueEquality(y, z);
    EqualsIsValueEquality(x, z);
  }

  /** Equal definitions have equal hashes, whatever the string and type hashes are. */
  lemma {:induction false} EqualsImpliesEqualHash(x: Option<TypeBuilderDefinition>, y: Option<TypeBuilderDefinition>,
                               stringHash: string -> Int32, typeHash: string -> Int32)
    requires Equals(x, y)
    ensures GetHashCode(x, stringHash, typeHash) == GetHashCode(y, stringHash, typeHash)
  {
    EqualsIsValueEquality(x, y);
  }
}

=== FILE: definitions.dfy ===
/**
  `TypeBuilderDefinition` (TypeBuilderDefinition.cs): the description of one
  builder, and the two lines of the generated container that mention it.
 */
module Definitions {
  import opened Wrappers
  import opened Text

  /** A constructor parameter: its name and the display string of its type, `None` when the type is `null`. */
  datatype Parameter = Parameter(name: string, parameterType: Option<string>)

  /**
    One builder: the type it creates, the builder's class name and namespace, and
    the ordered constructor parameters the comparer reads.
   */
  datatype TypeBuilderDefinition = TypeBuilderDefinition(
    fullTypeName: string,
    builderName: string,
    namespace: string,
    parameters: seq<Parameter>)

  const InstancePrefix: string := "    private static readonly "
  const MapEntryPrefix: string := "        { typeof("
  const MapEntrySuffix: string := ".Create },"
  const InstanceSuffix: string := "_Instance"

  /** The builder's qualified name, `Namespace.BuilderName`. */
  function FqName(d: TypeBuilderDefinition): string
  {
    d.namespace + "." + d.builderName
  }

  /** The name of the static field holding the builder: the qualified name with `.` turned into `_`, then `_Instance`. */
  function InstanceName(d: TypeBuilderDefinition): string
  {
    Replace(FqName(d), ".", "_") + InstanceSuffix
  }

  /** `    private static readonly {FqName} {InstanceName} = new {FqName}();` */
  function FormatAsInstance(d: TypeBuilderDefinition): string
  {
    InstancePrefix + FqName(d) + " " + InstanceName(d) + " = new " + FqName(d) + "();"
  }

  /** `        { typeof({FullTypeName}), {InstanceName}.Create },` */
  function FormatAsMapEntry(d: TypeBuilderDefinition): string
  {
    MapEntryPrefix + d.fullTypeName + "), " + InstanceName(d) + MapEntrySuffix
  }

  // ---------------------------------------------------------------------------
  // Reading the generated lines back

  /** Reads `    private static readonly T x = new T();` back into the type `T` and the declared field `x`. */
  function ParseInstanceDeclaration(line: string): Option<(string, string)>
  {
    if !StartsWith(line, InstancePrefix) then None
    else
      var rest := line[|InstancePrefix|..];
      var i := IndexOf(rest, ' ');
      if i == |rest| then None
      else
        var typeName := rest[..i];
        var afterType := rest[i + 1..];
        var j := IndexOf(afterType, ' ');
        if afterType[j..] == " = new " + typeName + "();" then Some((typeName, afterType[..j])) else None
  }

  /** Reads `        { typeof(T), x.Create },` back into the type text `T` and the referenced field `x`. */
  function ParseMapEntry(line: string): Option<(string, string)>
  {
    if !StartsWith(line, MapEntryPrefix) || !EndsWith(line, MapEntrySuffix)
       || |line| < |MapEntryPrefix| + |MapEntrySuffix|
    then None
    else
      var body := line[..|line| - |MapEntrySuffix|];
      var k := LastIndexOf(body, ' ');
      if k < |MapEntryPrefix| + 2 || body[k - 2..k + 1] != "), " then None
      else Some((body[|MapEntryPrefix|..k - 2], body[k + 1..]))
  }

  /** C# identifiers and namespace names never contain a space or a line break. */
  predicate WellFormedNames(d: TypeBuilderDefinition)
  {
    ' ' !in d.namespace && ' ' !in d.builderName && '\n' !in d.namespace && '\n' !in d.builderName
  }

  // ---------------------------------------------------------------------------
  // Properties

  /** Replacing `.` by `_` keeps the length and every other character, and leaves no `.`. */
  lemma {:induction false} ReplaceDotPointwise(s: string)
    ensures |Replace(s, ".", "_")| == |s|
    ensures forall i | 0 <= i < |s| :: Replace(s, ".", "_")[i] == (if s[i] == '.' then '_' else s[i])
    decreases |s|
  {
    if |s| > 0 {
      ReplaceDotPointwise(s[1..]);
      var tail := Replace(s[1..], ".", "_");
      if s[0] == '.' {
        assert StartsWith(s, ".");
        assert Replace(s, ".", "_") == "_" + tail;
      } else {
        assert !StartsWith(s, ".");
        assert Replace(s, ".", "_") == [s[0]] + tail;
      }
    }
  }

  /**
    The field name holds no `.`, ends in `_Instance`, and is the qualified name
    character for character except that every `.` became `_`.
   */
  lemma {:induction false} InstanceNameShape(d: TypeBuilderDefinition)
    ensures '.' !in InstanceName(d)
    ensures EndsWith(InstanceName(d), InstanceSuffix)
    ensures |InstanceName(d)| == |FqName(d)| + |InstanceSuffix|
    ensures forall i | 0 <= i < |FqName(d)| ::
      InstanceName(d)[i] == (if FqName(d)[i] == '.' then '_' else FqName(d)[i])
  {
    ReplaceDotPointwise(FqName(d));
    var s := Replace(FqName(d), ".", "_");
    assert InstanceName(d) == s + InstanceSuffix;
    forall i | 0 <= i < |InstanceName(d)|
      ensures InstanceName(d)[i] != '.'
    {
      if i < |s| {
        assert InstanceName(d)[i] == s[i];
      } else {
        assert InstanceName(d)[i] == InstanceSuffix[i - |s|];
      }
    }
  }

  /** The field name keeps every character of the qualified name other than `.`; in particular no space appears in it unless one was there. */
  lemma {:induction false} InstanceNameNoNewChars(d: TypeBuilderDefinition, c: char)
    requires c != '_' && c !in InstanceSuffix
    requires c !in FqName(d)
    ensures c !in InstanceName(d)
  {
    InstanceNameShape(d);
    var s := Replace(FqName(d), ".", "_");
    assert InstanceName(d) == s + InstanceSuffix;
    forall i | 0 <= i < |s|
      ensures s[i] != c
    {
      assert InstanceName(d)[i] == s[i];
      assert FqName(d)[i] in FqName(d);
    }
  }

  /**
    The qualified name is the namespace and the builder name around one `.`:
    the last `.` sits right after the namespace. An empty namespace leaves a
    leading `.`.
   */
  lemma {:induction false} FqNameSplitsBack(d: TypeBuilderDefinition)
    requires '.' !in d.builderName
    ensures LastIndexOf(FqName(d), '.') == |d.namespace|
    ensures FqName(d)[..|d.namespace|] == d.namespace
    ensures FqName(d)[|d.namespace| + 1..] == d.builderName
    ensures d.namespace == "" ==> FqName(d)[0] == '.'
  {
    LastIndexOfBeforeFree(d.namespace, '.', d.builderName);
    assert FqName(d) == d.namespace + ['.'] + d.builderName;
  }

  /**
    A builder with an empty namespace (a marked class in the global namespace)
    is declared with the type `.Name`, which is not a C# type name.
   */
  lemma {:induction false} EmptyNamespaceInstanceLine(d: TypeBuilderDefinition)
    requires d.namespace == ""
    ensures FormatAsInstance(d)[|InstancePrefix|..]
         == "." + d.builderName + " " + InstanceName(d) + " = new ." + d.builderName + "();"
  {
    assert FqName(d) == "." + d.builderName;
    assert FormatAsInstance(d) == InstancePrefix + ("." + d.builderName + " " + InstanceName(d) + " = new ." + d.builderName + "();");
  }

  /** Two builders whose qualified names differ only by `.` against `_` get the same field name. */
  lemma {:induction false} InstanceNameConflatesDots(d1: TypeBuilderDefinition, d2: TypeBuilderDefinition)
    requires |FqName(d1)| == |FqName(d2)|
    requires forall i | 0 <= i < |FqName(d1)| ::
      FqName(d1)[i] == FqName(d2)[i] || (FqName(d1)[i] in "._" && FqName(d2)[i] in "._")
    ensures InstanceName(d1) == InstanceName(d2)
  {
    InstanceNameShape(d1);
    InstanceNameShape(d2);
  }

  /** For example, builders `A.B.X` and `A_B.X` collide on the field `A_B_X_Instance`. */
  lemma {:induction false} InstanceNameCollision()
    ensures FqName(TypeBuilderDefinition("A", "X", "A.B", [])) != FqName(TypeBuilderDefinition("A", "X", "A_B", []))
    ensures InstanceName(TypeBuilderDefinition("A", "X", "A.B", [])) == InstanceName(TypeBuilderDefinition("A", "X", "A_B", []))
  {
    var d1 := TypeBuilderDefinition("A", "X", "A.B", []);
    var d2 := TypeBuilderDefinition("A", "X", "A_B", []);
    assert FqName(d1) == "A.B.X" && FqName(d2) == "A_B.X";
    assert FqName(d1)[1] != FqName(d2)[1];
    InstanceNameConflatesDots(d1, d2);
  }

  lemma {:induction false} ParseInstanceLine(fq: string, inst: string)
    requires ' ' !in fq && ' ' !in inst
    ensures ParseInstanceDeclaration(InstancePrefix + (fq + (" " + (inst + (" = new " + fq + "();")))))
         == Some((fq, inst))
  {
    var tail := " = new " + fq + "();";
    var afterType := inst + tail;
    var rest := fq + (" " + afterType);
    StartsWithAppend(InstancePrefix, rest);
    SplitAtFree(fq, " " + afterType, ' ');
    assert (" " + afterType)[1..] == afterType;
    SplitAtFree(inst, tail, ' ');
  }

  /** Reading the instance line back recovers the builder's qualified name and its field name. */
  lemma {:induction false} ParseFormatAsInstance(d: TypeBuilderDefinition)
    requires WellFormedNames(d)
    ensures ParseInstanceDeclaration(FormatAsInstance(d)) == Some((FqName(d), InstanceName(d)))
  {
    assert ' ' !in FqName(d);
    InstanceNameNoNewChars(d, ' ');
    var fq := FqName(d);
    var inst := InstanceName(d);
    assert FormatAsInstance(d) == InstancePrefix + (fq + (" " + (inst + (" = new " + fq + "();"))));
    ParseInstanceLine(fq, inst);
  }

  lemma {:induction false} ParseMapLine(typeText: string, inst: string)
    requires ' ' !in inst
    ensures ParseMapEntry(MapEntryPrefix + (typeText + ")," + [' '] + inst + MapEntrySuffix))
         == Some((typeText, inst))
  {
    var rest := typeText + ")," + [' '] + inst + MapEntrySuffix;
    var head := MapEntryPrefix + (typeText + "),");
    var body := head + [' '] + inst;
    var line := MapEntryPrefix + rest;
    StartsWithAppend(MapEntryPrefix, rest);
    assert line == body + MapEntrySuffix;
    EndsWithAppend(body, MapEntrySuffix);
    SplitAtLastFree(head, ' ', inst);
    assert body[|head| - 2..|head| + 1] == "), ";
    assert body[|MapEntryPrefix|..|head| - 2] == typeText;
  }

  /** Reading the map entry back recovers the created type's text and the referenced field name. */
  lemma {:induction false} ParseFormatAsMapEntry(d: TypeBuilderDefinition)
    requires WellFormedNames(d)
    ensures ParseMapEntry(FormatAsMapEntry(d)) == Some((d.fullTypeName, InstanceName(d)))
  {
    var inst := InstanceName(d);
    assert ' ' !in FqName(d);
    InstanceNameNoNewChars(d, ' ');
    assert FormatAsMapEntry(d) == MapEntryPrefix + (d.fullTypeName + ")," + [' '] + inst + MapEntrySuffix);
    ParseMapLine(d.fullTypeName, inst);
  }

  /** The field the instance line declares is the very field the map entry references. */
  lemma {:induction false} DeclaredIsReferenced(d: TypeBuilderDefinition)
    requires WellFormedNames(d)
    ensures ParseInstanceDeclaration(FormatAsInstance(d)).Some?
    ensures ParseMapEntry(FormatAsMapEntry(d)).Some?
    ensures ParseInstanceDeclaration(FormatAsInstance(d)).value.1 == ParseMapEntry(FormatAsMapEntry(d)).value.1
  {
    ParseFormatAsInstance(d);
    ParseFormatAsMapEntry(d);
  }

  /** Neither generated line contains a line break, so each stays one line of the container. */
  lemma {:induction false} FormattedLinesAreSingle(d: TypeBuilderDefinition)
    requires WellFormedNames(d)
    requires '\n' !in d.fullTypeName
    ensures SingleLine(FormatAsInstance(d))
    ensures SingleLine(FormatAsMapEntry(d))
  {
    assert '\n' !in FqName(d);
    InstanceNameNoNewChars(d, '\n');
  }
}

=== FILE: generator.dfy ===
/**
  `ContainerGenerator` (ContainerGenerator.cs): the built-in catalog, the two
  extraction rules, the aggregation of their results, and the rendering of the
  container source and of one builder source per record.
 */
module Generator {
  import opened Wrappers
  import opened Text
  import opened Symbols
  import opened Definitions
  import opened Template

  const TypeBuilderNamespace: string := "Kwality.Datodia.Builders"
  const TypeBuilderInterfaceNamespace: string := TypeBuilderNamespace + ".Abstractions"
  const TypeBuilderInterfaceName: string := "ITypeBuilder"
  const SystemTypeBuildersNamespace: string := TypeBuilderNamespace + ".System"
  /** The namespace under which builders for records are generated. */
  const GeneratedNamespace: string := TypeBuilderNamespace + ".Generated"
  const TypeBuilderSuffix: string := "TypeBuilder"

  const ContainerHintName: string := "Container.g.cs"
  const SourceHintSuffix: string := ".g.cs"

  const MapHeader: string :=
    "    private readonly " + "Dictionary<Type, " + "Func<IContainer, object>> " + "typeBuilders = new()"
  const MapOpen: string := "    {"
  const MapClose: string := "    };"

  /** The builders shipped with the library, for `string`, `System.Guid` and `bool`. */
  const SystemTypeBuilders: seq<TypeBuilderDefinition> := [
    TypeBuilderDefinition("string", "StringTypeBuilder", SystemTypeBuildersNamespace, []),
    TypeBuilderDefinition("System.Guid", "GuidTypeBuilder", SystemTypeBuildersNamespace, []),
    TypeBuilderDefinition("bool", "BoolTypeBuilder", SystemTypeBuildersNamespace, [])
  ]

  /** A source added to the compilation: its hint name and its text. */
  datatype GeneratedSource = GeneratedSource(hintName: string, text: string)

  // ---------------------------------------------------------------------------
  // Extraction

  /**
    The transformation for a class carrying the marker attribute: a definition
    when the target is a named type implementing `ITypeBuilder<T>`, built from
    `T`'s display string, the class name and its full namespace (empty when null
    or empty); `None` (C# `null`) otherwise.
   */
  function MarkedBuilder(target: Symbol): Option<TypeBuilderDefinition>
  {
    if target.kind != NamedType then None
    else
      match target.typeBuilderArgument
      case None => None
      case Some(displayName) =>
        var symbolNamespace := FullNamespace(target);
        var ns := if symbolNamespace.None? || symbolNamespace.value == "" then "" else symbolNamespace.value;
        Some(TypeBuilderDefinition(displayName, target.name, ns, []))
  }

  /**
    The transformation for a record declaration: a definition when its declared
    symbol is a named type, creating the record's display string with a builder
    called `<Name>TypeBuilder` placed under the generated namespace.
   */
  function RecordBuilder(declared: Symbol): Option<TypeBuilderDefinition>
  {
    if declared.kind != NamedType then None
    else
      var fullTypeName := declared.displayString;
      var symbolNamespace := FullNamespace(declared);
      var ns := if symbolNamespace.None? || symbolNamespace.value == "" then GeneratedNamespace
                else GeneratedNamespace + "." + symbolNamespace.value;
      Some(TypeBuilderDefinition(fullTypeName, declared.name + TypeBuilderSuffix, ns, []))
  }

  /** The marked-builder rule applied to every class carrying the marker, in syntax order. */
  function MarkedResults(targets: seq<Symbol>): seq<Option<TypeBuilderDefinition>>
  {
    seq(|targets|, i requires 0 <= i < |targets| => MarkedBuilder(targets[i]))
  }

  /** The record rule applied to every record declaration, in syntax order. */
  function RecordResults(records: seq<Symbol>): seq<Option<TypeBuilderDefinition>>
  {
    seq(|records|, i requires 0 <= i < |records| => RecordBuilder(records[i]))
  }

  // ---------------------------------------------------------------------------
  // Aggregation

  /** `Where(builder => builder is not null)`: keeps the non-null items, in order. */
  function WhereNotNull<T>(xs: seq<Option<T>>): (r: seq<Option<T>>)
    ensures |r| <= |xs|
    ensures forall i | 0 <= i < |r| :: r[i].Some?
  {
    if |xs| == 0 then []
    else (if xs[0].Some? then [xs[0]] else []) + WhereNotNull(xs[1..])
  }

  /** `Enumerable.OfType<T>`: the values of the non-null items, in order. */
  function Defined<T>(xs: seq<Option<T>>): (r: seq<T>)
    ensures |r| <= |xs|
  {
    if |xs| == 0 then []
    else (if xs[0].Some? then [xs[0].value] else []) + Defined(xs[1..])
  }

  /** Every element as a non-null item. */
  function Lift<T>(xs: seq<T>): seq<Option<T>>
  {
    seq(|xs|, i requires 0 <= i < |xs| => Some(xs[i]))
  }

  /**
    The combined provider: both filtered providers collected, combined, and
    flattened marked builders first, then records.
   */
  function Combined(markedTargets: seq<Symbol>, records: seq<Symbol>): seq<Option<TypeBuilderDefinition>>
  {
    WhereNotNull(MarkedResults(markedTargets)) + WhereNotNull(RecordResults(records))
  }

  /** `systemTypeBuilders.Concat(typeBuilders)`: the built-ins, then whatever the combined provider delivered. */
  function AllTypeBuilders(typeBuilders: seq<Option<TypeBuilderDefinition>>): seq<Option<TypeBuilderDefinition>>
  {
    Lift(SystemTypeBuilders) + typeBuilders
  }

  // ---------------------------------------------------------------------------
  // Rendering

  /** `CreateTypeBuilderInstances`: one `AppendLine(FormatAsInstance())` per non-null definition. */
  function CreateTypeBuilderInstances(defs: seq<Option<TypeBuilderDefinition>>): string
  {
    if |defs| == 0 then ""
    else (if defs[0].Some? then FormatAsInstance(defs[0].value) + NewLine else "")
         + CreateTypeBuilderInstances(defs[1..])
  }

  /** The `AppendLine(FormatAsMapEntry())` lines of `CreateTypeBuilderMap`. */
  function MapEntries(defs: seq<Option<TypeBuilderDefinition>>): string
  {
    if |defs| == 0 then ""
    else (if defs[0].Some? then FormatAsMapEntry(defs[0].value) + NewLine else "")
         + MapEntries(defs[1..])
  }

  /** `CreateTypeBuilderMap`: the dictionary header and `{`, one entry per non-null definition, then `};`. */
  function CreateTypeBuilderMap(defs: seq<Option<TypeBuilderDefinition>>): string
  {
    MapHeader + NewLine + MapOpen + NewLine + MapEntries(defs) + MapClose + NewLine
  }

  /** The container text: the template with both placeholders replaced, instances first. */
  function ContainerText(allTypeBuilders: seq<Option<TypeBuilderDefinition>>): string
  {
    var instances := CreateTypeBuilderInstances(allTypeBuilders);
    var typeBuilderMap := CreateTypeBuilderMap(allTypeBuilders);
    Replace(Replace(ContainerTemplate, InstancesMarker, instances), MapMarker, typeBuilderMap)
  }

  /** `GenerateContainer`: prepends the built-ins and renders `Container.g.cs`. */
  function GenerateContainer(typeBuilders: seq<Option<TypeBuilderDefinition>>): GeneratedSource
  {
    GeneratedSource(ContainerHintName, ContainerText(AllTypeBuilders(typeBuilders)))
  }

  /** The source of a generated record builder. */
  function TypeBuilderSource(d: TypeBuilderDefinition): string
  {
    "namespace " + d.namespace + ";" + ClassLead + d.builderName + ClassRest(d)
  }

  /** The lines of a builder source between its `namespace` line and its class name. */
  const ClassLead: string :=
    "\n" + "\n" + "using global::" + "Kwality.Datodia.Abstractions;\n" + "\n" + "[global::TypeBuilder]\n" + "public sealed class "

  /** What follows the class name: the `ITypeBuilder<T>` base and a `Create` that calls `T`'s parameterless constructor. */
  function ClassRest(d: TypeBuilderDefinition): string
  {
    " : global::" + TypeBuilderInterfaceNamespace + "." + TypeBuilderInterfaceName + "<global::" + d.fullTypeName + ">\n" +
    "{\n" +
    "    /// <inheritdoc />\n" +
    "    public object " + "Create(IContainer container)\n" +
    "    {\n" +
    "        return new global::" + d.fullTypeName + "();\n" +
    "    }\n" +
    "}"
  }

  /** `GenerateTypeBuilder`: nothing for null, otherwise one source named `<Namespace>.<BuilderName>.g.cs`. */
  function GenerateTypeBuilder(definition: Option<TypeBuilderDefinition>): seq<GeneratedSource>
  {
    match definition
    case None => []
    case Some(d) => [GeneratedSource(d.namespace + "." + d.builderName + SourceHintSuffix, TypeBuilderSource(d))]
  }

  /** The record builder sources, one `GenerateTypeBuilder` per item of the filtered record provider. */
  function RecordBuilderSources(items: seq<Option<TypeBuilderDefinition>>): seq<GeneratedSource>
  {
    if |items| == 0 then [] else GenerateTypeBuilder(items[0]) + RecordBuilderSources(items[1..])
  }

  /** Everything the generator adds for one compilation, apart from the marker attribute. */
  datatype Outputs = Outputs(recordBuilders: seq<GeneratedSource>, container: GeneratedSource)

  function Generate(markedTargets: seq<Symbol>, records: seq<Symbol>): Outputs
  {
    Outputs(RecordOutputs(records), GenerateContainer(Combined(markedTargets, records)))
  }

  /** The sources of the record provider's output: one builder source per record that yields a definition. */
  function RecordOutputs(records: seq<Symbol>): seq<GeneratedSource>
  {
    RecordBuilderSources(WhereNotNull(RecordResults(records)))
  }

  /** Non-null items give one builder source each, in order. */
  lemma {:induction false} RecordBuilderSourcesOfDefinitions(ds: seq<TypeBuilderDefinition>)
    ensures |RecordBuilderSources(Lift(ds))| == |ds|
    ensures forall i | 0 <= i < |ds| :: RecordBuilderSources(Lift(ds))[i] == GenerateTypeBuilder(Some(ds[i]))[0]
    decreases |ds|
  {
    if |ds| > 0 {
      assert Lift(ds)[1..] == Lift(ds[1..]);
      RecordBuilderSourcesOfDefinitions(ds[1..]);
      var rest := RecordBuilderSources(Lift(ds[1..]));
      assert RecordBuilderSources(Lift(ds)) == GenerateTypeBuilder(Some(ds[0])) + rest;
      forall i | 1 <= i < |ds|
        ensures RecordBuilderSources(Lift(ds))[i] == GenerateTypeBuilder(Some(ds[i]))[0]
      {
        assert RecordBuilderSources(Lift(ds))[i] == rest[i - 1];
        assert ds[1..][i - 1] == ds[i];
      }
    }
  }

  /**
    One generator run: every record that yields a definition gets exactly one
    builder source, in syntax order, and that same definition is one of those
    the container is rendered from.
   */
  lemma {:induction false} GenerateCoversRecords(markedTargets: seq<Symbol>, records: seq<Symbol>)
    ensures var sources := Generate(markedTargets, records).recordBuilders;
      var ds := Defined(RecordResults(records));
      |sources| == |ds| && forall i | 0 <= i < |ds| :: sources[i] == GenerateTypeBuilder(Some(ds[i]))[0]
    ensures forall d | d in Defined(RecordResults(records)) :: d in Defined(AllTypeBuilders(Combined(markedTargets, records)))
  {
    WhereNotNullKeepsDefinitions(RecordResults(records));
    RecordBuilderSourcesOfDefinitions(Defined(RecordResults(records)));
    AggregationOrder(markedTargets, records);
  }

  // ---------------------------------------------------------------------------
  // Reading a record builder source back

  /** Reads the namespace of the first line and the name of the declared class back from a builder source. */
  function ParseDeclaredBuilder(text: string): Option<(string, string)>
  {
    var i := IndexOf(text, '\n');
    var firstLine := text[..i];
    if !StartsWith(firstLine, "namespace ") || !EndsWith(firstLine, ";") || |firstLine| < 11 then None
    else
      var rest := text[i..];
      if !StartsWith(rest, ClassLead) then None
      else
        var afterLead := rest[|ClassLead|..];
        var j := IndexOf(afterLead, ' ');
        Some((firstLine[10..|firstLine| - 1], afterLead[..j]))
  }

  // ---------------------------------------------------------------------------
  // Properties: extraction

  /**
    A marked class yields a definition exactly when it is a named type that
    implements `ITypeBuilder<T>`; the definition creates `T`, is named after the
    class and has no parameters.
   */
  lemma {:induction false} MarkedBuilderRule(target: Symbol)
    ensures MarkedBuilder(target).Some? <==> target.kind == NamedType && target.typeBuilderArgument.Some?
    ensures MarkedBuilder(target).Some? ==>
      && MarkedBuilder(target).value.fullTypeName == target.typeBuilderArgument.value
      && MarkedBuilder(target).value.builderName == target.name
      && MarkedBuilder(target).value.parameters == []
  {
  }

  /**
    The namespace of a marked builder declared in `namespace A.B` inside types
    `X.Y` is `A.B.X.Y`; declared in the global namespace it is empty, even when
    nested in types.
   */
  lemma {:induction false} MarkedBuilderNamespace(target: Symbol, segments: seq<string>, outer: seq<string>)
    requires target.kind == NamedType && target.typeBuilderArgument.Some?
    requires target.containingNamespace == DeclaredNamespace(segments)
    requires target.containingType == DeclaredContainingType(outer)
    requires |segments| > 0 ==> segments[0] != ""
    requires |outer| > 0 ==> outer[0] != ""
    ensures |segments| == 0 ==> MarkedBuilder(target).value.namespace == ""
    ensures |segments| > 0 ==> MarkedBuilder(target).value.namespace == Join(".", segments + outer)
  {
    if |segments| > 0 {
      FullNamespaceOfDeclared(target, segments, outer);
      JoinStartsWithFirst(".", segments + outer);
    }
  }

  /** A record yields a definition exactly when its declared symbol is a named type. */
  lemma {:induction false} RecordBuilderRule(declared: Symbol)
    ensures RecordBuilder(declared).Some? <==> declared.kind == NamedType
    ensures RecordBuilder(declared).Some? ==>
      && RecordBuilder(declared).value.fullTypeName == declared.displayString
      && RecordBuilder(declared).value.builderName == declared.name + "TypeBuilder"
      && RecordBuilder(declared).value.parameters == []
  {
  }

  /**
    The builder for a record declared in `namespace A.B` inside types `X.Y` lives in
    `Kwality.Datodia.Builders.Generated.A.B.X.Y`; for a record in the global namespace,
    nested or not, in `Kwality.Datodia.Builders.Generated`.
   */
  lemma {:induction false} RecordBuilderNamespace(declared: Symbol, segments: seq<string>, outer: seq<string>)
    requires declared.kind == NamedType
    requires declared.containingNamespace == DeclaredNamespace(segments)
    requires declared.containingType == DeclaredContainingType(outer)
    requires |segments| > 0 ==> segments[0] != ""
    requires |outer| > 0 ==> outer[0] != ""
    ensures |segments| == 0 ==> RecordBuilder(declared).value.namespace == "Kwality.Datodia.Builders.Generated"
    ensures |segments| > 0 ==>
      RecordBuilder(declared).value.namespace == "Kwality.Datodia.Builders.Generated." + Join(".", segments + outer)
  {
    if |segments| > 0 {
      FullNamespaceOfDeclared(declared, segments, outer);
      JoinStartsWithFirst(".", segments + outer);
    }
  }

  // ---------------------------------------------------------------------------
  // Properties: aggregation

  lemma {:induction false} DefinedAppend<T>(a: seq<Option<T>>, b: seq<Option<T>>)
    ensures Defined(a + b) == Defined(a) + Defined(b)
    decreases |a|
  {
    if |a| > 0 {
      assert (a + b)[1..] == a[1..] + b;
      DefinedAppend(a[1..], b);
    } else {
      assert a + b == b;
    }
  }

  /** Skipping nulls keeps exactly the values that were present: `x` survives iff some item was `x`. */
  lemma {:induction false} DefinedMembers<T>(xs: seq<Option<T>>, x: T)
    ensures x in Defined(xs) <==> Some(x) in xs
    decreases |xs|
  {
    if |xs| > 0 {
      DefinedMembers(xs[1..], x);
      assert xs == [xs[0]] + xs[1..];
    }
  }

  lemma {:induction false} DefinedLift<T>(xs: seq<T>)
    ensures Defined(Lift(xs)) == xs
    decreases |xs|
  {
    if |xs| > 0 {
      assert Lift(xs)[1..] == Lift(xs[1..]);
      DefinedLift(xs[1..]);
      assert xs == [xs[0]] + xs[1..];
    }
  }

  /** Filtering out nulls loses no definition and reorders nothing. */
  lemma {:induction false} WhereNotNullKeepsDefinitions<T>(xs: seq<Option<T>>)
    ensures WhereNotNull(xs) == Lift(Defined(xs))
    ensures Defined(WhereNotNull(xs)) == Defined(xs)
    decreases |xs|
  {
    if |xs| > 0 {
      WhereNotNullKeepsDefinitions(xs[1..]);
      var head := if xs[0].Some? then [xs[0]] else [];
      var headValue := if xs[0].Some? then [xs[0].value] else [];
      assert Lift(headValue + Defined(xs[1..])) == head + Lift(Defined(xs[1..]));
    }
    DefinedLift(Defined(xs));
  }

  /**
    The definitions the container is rendered from are the three built-ins, then
    every marked builder, then every record builder, each group in syntax order,
    with nothing removed: the count is the sum of the three counts.
   */
  lemma {:induction false} AggregationOrder(markedTargets: seq<Symbol>, records: seq<Symbol>)
    ensures Defined(AllTypeBuilders(Combined(markedTargets, records)))
         == SystemTypeBuilders + Defined(MarkedResults(markedTargets)) + Defined(RecordResults(records))
    ensures |Defined(AllTypeBuilders(Combined(markedTargets, records)))|
         == 3 + |Defined(MarkedResults(markedTargets))| + |Defined(RecordResults(records))|
  {
    var marked := WhereNotNull(MarkedResults(markedTargets));
    var recs := WhereNotNull(RecordResults(records));
    WhereNotNullKeepsDefinitions(MarkedResults(markedTargets));
    WhereNotNullKeepsDefinitions(RecordResults(records));
    DefinedLift(SystemTypeBuilders);
    DefinedAppend(Lift(SystemTypeBuilders), marked + recs);
    DefinedAppend(marked, recs);
  }

  /** The built-in catalog: `string`, `System.Guid` and `bool`, all in `Kwality.Datodia.Builders.System`. */
  lemma {:induction false} SystemCatalog()
    ensures |SystemTypeBuilders| == 3
    ensures SystemTypeBuilders[0].fullTypeName == "string"
    ensures SystemTypeBuilders[1].fullTypeName == "System.Guid"
    ensures SystemTypeBuilders[2].fullTypeName == "bool"
    ensures forall i | 0 <= i < 3 :: SystemTypeBuilders[i].namespace == "Kwality.Datodia.Builders.System"
  {
  }

  /** With no marked class and no record, the container is rendered from the three built-ins alone. */
  lemma {:induction false} EmptyCompilation()
    ensures Defined(AllTypeBuilders(Combined([], []))) == SystemTypeBuilders
  {
    AggregationOrder([], []);
  }

  /**
    Nothing is deduplicated: a record seen through two declarations (a partial
    record) contributes its definition twice, and both builder sources get the
    same hint name.
   */
  lemma {:induction false} NoDeduplication(declared: Symbol)
    requires declared.kind == NamedType
    ensures var d := RecordBuilder(declared).value;
      && Defined(AllTypeBuilders(Combined([], [declared, declared]))) == SystemTypeBuilders + [d, d]
      && |RecordOutputs([declared, declared])| == 2
      && RecordOutputs([declared, declared])[0].hintName == RecordOutputs([declared, declared])[1].hintName
  {
    var d := RecordBuilder(declared).value;
    AggregationOrder([], [declared, declared]);
    assert RecordResults([declared, declared]) == [Some(d), Some(d)];
    assert Defined([Some(d), Some(d)]) == [d, d];
    assert WhereNotNull([Some(d), Some(d)]) == [Some(d), Some(d)];
    assert [Some(d), Some(d)][1..] == [Some(d)];
    assert RecordBuilderSources([Some(d)]) == GenerateTypeBuilder(Some(d)) + RecordBuilderSources([]);
  }

  lemma {:induction false} GeneratedNamespaceValue()
    ensures GeneratedNamespace == "Kwality.Datodia.Builders.Generated"
  {
  }

  /** `public sealed record Person;` in the global namespace gets `Kwality.Datodia.Builders.Generated.PersonTypeBuilder`. */
  lemma {:induction false} PersonBuilder(person: Symbol)
    requires person == Symbol(NamedType, "Person", "Person", GlobalNamespace, NotNested, None)
    ensures RecordBuilder(person)
         == Some(TypeBuilderDefinition("Person", "PersonTypeBuilder", "Kwality.Datodia.Builders.Generated", []))
  {
    GeneratedNamespaceValue();
    assert FullNamespace(person) == None;
    assert "Person" + TypeBuilderSuffix == "PersonTypeBuilder";
  }

  /** The single-record compilation `public sealed record Person;` gives four definitions, the record's last. */
  lemma {:induction false} PersonScenario(person: Symbol)
    requires person == Symbol(NamedType, "Person", "Person", GlobalNamespace, NotNested, None)
    ensures Defined(AllTypeBuilders(Combined([], [person])))
         == SystemTypeBuilders
            + [TypeBuilderDefinition("Person", "PersonTypeBuilder", "Kwality.Datodia.Builders.Generated", [])]
  {
    var d := TypeBuilderDefinition("Person", "PersonTypeBuilder", "Kwality.Datodia.Builders.Generated", []);
    AggregationOrder([], [person]);
    PersonBuilder(person);
    assert RecordResults([person]) == [Some(d)];
    assert Defined([Some(d)]) == [d];
    assert Defined(MarkedResults([])) == [];
  }

  // ---------------------------------------------------------------------------
  // Properties: rendering

  function InstanceLines(ds: seq<TypeBuilderDefinition>): seq<string>
  {
    seq(|ds|, i requires 0 <= i < |ds| => FormatAsInstance(ds[i]))
  }

  function MapEntryLines(ds: seq<TypeBuilderDefinition>): seq<string>
  {
    seq(|ds|, i requires 0 <= i < |ds| => FormatAsMapEntry(ds[i]))
  }

  predicate RenderableDefinitions(ds: seq<TypeBuilderDefinition>)
  {
    forall i | 0 <= i < |ds| :: WellFormedNames(ds[i]) && '\n' !in ds[i].fullTypeName
  }

  lemma {:induction false} InstancesAreLines(defs: seq<Option<TypeBuilderDefinition>>)
    ensures CreateTypeBuilderInstances(defs) == Lines(InstanceLines(Defined(defs)))
    ensures MapEntries(defs) == Lines(MapEntryLines(Defined(defs)))
    decreases |defs|
  {
    if |defs| > 0 {
      InstancesAreLines(defs[1..]);
      var rest := Defined(defs[1..]);
      if defs[0].Some? {
        var d := defs[0].value;
        assert Defined(defs) == [d] + rest;
        assert InstanceLines([d] + rest) == [FormatAsInstance(d)] + InstanceLines(rest);
        assert MapEntryLines([d] + rest) == [FormatAsMapEntry(d)] + MapEntryLines(rest);
      } else {
        assert Defined(defs) == rest;
      }
    }
  }

  /**
    The instance block reads back as exactly one `FormatAsInstance` line per
    non-null definition, in list order, and nothing else.
   */
  lemma {:induction false} InstancesBlockLayout(defs: seq<Option<TypeBuilderDefinition>>)
    requires RenderableDefinitions(Defined(defs))
    ensures SplitLines(CreateTypeBuilderInstances(defs)) == InstanceLines(Defined(defs))
  {
    InstancesAreLines(defs);
    var ds := Defined(defs);
    forall i | 0 <= i < |ds|
      ensures SingleLine(InstanceLines(ds)[i])
    {
      FormattedLinesAreSingle(ds[i]);
    }
    SplitLinesOfLines(InstanceLines(ds));
  }

  /** The lines `CreateTypeBuilderMap` appends: header, `{`, one entry per non-null definition, `};`. */
  function MapBlockLines(ds: seq<TypeBuilderDefinition>): seq<string>
  {
    [MapHeader, MapOpen] + MapEntryLines(ds) + [MapClose]
  }

  lemma {:induction false} MapBlockIsLines(defs: seq<Option<TypeBuilderDefinition>>)
    ensures CreateTypeBuilderMap(defs) == Lines(MapBlockLines(Defined(defs)))
  {
    InstancesAreLines(defs);
    var ds := Defined(defs);
    LinesAppend([MapHeader, MapOpen], MapEntryLines(ds));
    LinesAppend([MapHeader, MapOpen] + MapEntryLines(ds), [MapClose]);
    assert Lines([MapHeader, MapOpen]) == MapHeader + NewLine + MapOpen + NewLine;
    assert Lines([MapClose]) == MapClose + NewLine;
  }

  /**
    The map block reads back as the dictionary header, `{`, one `FormatAsMapEntry`
    line per non-null definition in list order, and `};`.
   */
  lemma {:induction false} MapBlockLayout(defs: seq<Option<TypeBuilderDefinition>>)
    requires RenderableDefinitions(Defined(defs))
    ensures SplitLines(CreateTypeBuilderMap(defs)) == [MapHeader, MapOpen] + MapEntryLines(Defined(defs)) + [MapClose]
  {
    var ds := Defined(defs);
    var lines := MapBlockLines(ds);
    MapBlockIsLines(defs);
    MapFrameLines();
    forall i | 0 <= i < |lines|
      ensures SingleLine(lines[i])
    {
      if 2 <= i < |lines| - 1 {
        assert lines[i] == FormatAsMapEntry(ds[i - 2]);
        FormattedLinesAreSingle(ds[i - 2]);
      }
    }
    SplitLinesOfLines(lines);
  }

  /** The dictionary's header, `{` and `};` lines are single lines. */
  lemma {:induction false} MapFrameLines()
    ensures SingleLine(MapHeader) && SingleLine(MapOpen) && SingleLine(MapClose)
  {
  }

  /**
    Template substitution: when the instance block does not itself contain the
    map placeholder, the container text is the template's head, the instance
    block, the map block and the template's tail, in that order.
   */
  lemma {:induction false} ContainerLayout(allTypeBuilders: seq<Option<TypeBuilderDefinition>>)
    requires !Contains(CreateTypeBuilderInstances(allTypeBuilders), MapMarker)
    ensures ContainerText(allTypeBuilders)
         == Layout(ContainerHead, CreateTypeBuilderInstances(allTypeBuilders), CreateTypeBuilderMap(allTypeBuilders), ContainerTail)
  {
    var instances := CreateTypeBuilderInstances(allTypeBuilders);
    var typeBuilderMap := CreateTypeBuilderMap(allTypeBuilders);
    TemplateLacksHash();
    MarkerFacts();
    SubstituteFirst('#', ContainerHead, ContainerTail, InstancesMarker, MapMarker, instances);
    SubstituteSecond('#', ContainerHead, ContainerTail, MapMarker, instances, typeBuilderMap);
  }

  /**
    `Container.g.cs` is the template with the instance block (built-ins first) in
    place of the first placeholder line and the map block in place of the second,
    as long as no qualified builder name contains `#`.
   */
  lemma {:induction false} GenerateContainerLayout(typeBuilders: seq<Option<TypeBuilderDefinition>>)
    requires forall i | 0 <= i < |Defined(AllTypeBuilders(typeBuilders))| :: '#' !in FqName(Defined(AllTypeBuilders(typeBuilders))[i])
    ensures GenerateContainer(typeBuilders).hintName == "Container.g.cs"
    ensures GenerateContainer(typeBuilders).text
         == Layout(ContainerHead, CreateTypeBuilderInstances(AllTypeBuilders(typeBuilders)),
                   CreateTypeBuilderMap(AllTypeBuilders(typeBuilders)), ContainerTail)
  {
    InstancesLackMapMarker(AllTypeBuilders(typeBuilders));
    ContainerLayout(AllTypeBuilders(typeBuilders));
  }

  /** Builder and namespace names never contain `#`, so an instance block never contains the map placeholder. */
  lemma {:induction false} InstancesLackMapMarker(defs: seq<Option<TypeBuilderDefinition>>)
    requires forall i | 0 <= i < |Defined(defs)| :: '#' !in FqName(Defined(defs)[i])
    ensures !Contains(CreateTypeBuilderInstances(defs), MapMarker)
  {
    InstancesAreLines(defs);
    var ds := Defined(defs);
    forall i | 0 <= i < |ds|
      ensures '#' !in InstanceLines(ds)[i]
    {
      InstanceLineLacksHash(ds[i]);
    }
    NoCharInLines(InstanceLines(ds), '#');
    MarkerFacts();
    AbsentByChar(CreateTypeBuilderInstances(defs), MapMarker, '#');
  }

  lemma {:induction false} InstanceLineLacksHash(d: TypeBuilderDefinition)
    requires '#' !in FqName(d)
    ensures '#' !in FormatAsInstance(d)
  {
    InstanceNameNoNewChars(d, '#');
    assert '#' !in InstancePrefix;
    assert '#' !in " = new " && '#' !in "();";
  }

  lemma {:induction false} NoCharInLines(lines: seq<string>, c: char)
    requires c != '\n'
    requires forall i | 0 <= i < |lines| :: c !in lines[i]
    ensures c !in Lines(lines)
    decreases |lines|
  {
    if |lines| > 0 {
      NoCharInLines(lines[1..], c);
    }
  }

  // ---------------------------------------------------------------------------
  // Properties: record builder sources

  /**
    A record builder source is emitted only for a definition; its hint name is the
    builder's qualified name plus `.g.cs`, and it declares, in the definition's
    namespace, the class the container instantiates.
   */
  lemma {:induction false} TypeBuilderSourceShape(definition: Option<TypeBuilderDefinition>)
    ensures definition.None? ==> GenerateTypeBuilder(definition) == []
    ensures definition.Some? ==>
      && |GenerateTypeBuilder(definition)| == 1
      && GenerateTypeBuilder(definition)[0].hintName == FqName(definition.value) + ".g.cs"
    ensures definition.Some? && WellFormedNames(definition.value) ==>
      && ParseDeclaredBuilder(GenerateTypeBuilder(definition)[0].text)
         == Some((definition.value.namespace, definition.value.builderName))
      && definition.value.namespace + "." + definition.value.builderName == FqName(definition.value)
  {
    if definition.Some? && WellFormedNames(definition.value) {
      ParseTypeBuilderSource(definition.value);
    }
  }

  lemma {:induction false} ParseBuilderText(ns: string, className: string, afterClass: string)
    requires '\n' !in ns && ' ' !in className
    requires |afterClass| > 0 && afterClass[0] == ' '
    ensures ParseDeclaredBuilder(("namespace " + ns + ";") + (ClassLead + (className + afterClass))) == Some((ns, className))
  {
    var firstLine := "namespace " + ns + ";";
    var rest := ClassLead + (className + afterClass);
    assert ClassLead[0] == '\n';
    SplitAtFree(firstLine, rest, '\n');
    StartsWithAppend("namespace ", ns + ";");
    EndsWithAppend("namespace " + ns, ";");
    StartsWithAppend(ClassLead, className + afterClass);
    SplitAtFree(className, afterClass, ' ');
    assert firstLine[10..|firstLine| - 1] == ns;
  }

  lemma {:induction false} ParseTypeBuilderSource(d: TypeBuilderDefinition)
    requires WellFormedNames(d)
    ensures ParseDeclaredBuilder(TypeBuilderSource(d)) == Some((d.namespace, d.builderName))
  {
    assert TypeBuilderSource(d) == ("namespace " + d.namespace + ";") + (ClassLead + (d.builderName + ClassRest(d)));
    ParseBuilderText(d.namespace, d.builderName, ClassRest(d));
  }
}

=== FILE: runtime.dfy ===
/**
  The runtime dispatch table: the library's `Container` (Container.cs) and the
  container the generator emits (the template in ContainerGenerator.cs), both a
  map from a type to the factory that creates it.

  Factories are not pure: each call may produce a fresh value (a new `Guid`, a
  new record). A factory is therefore modelled by an interpretation
  `invoke(factory, call)` supplied by the caller, where `call` numbers the calls
  made so far, so that two calls of the same factory may differ.
 */
module Runtime {
  import opened Wrappers
  import Text
  import opened Definitions
  import opened Symbols
  import opened Generator
  import Template

  /** The runtime identity of a type, `typeof(T)`, carrying the text `Type.ToString()` gives. */
  datatype TypeKey = TypeKey(name: string)

  /** The exception `Create` throws; only its message matters here. */
  datatype DatodiaException = DatodiaException(message: string)

  /** `typeof(string)`. */
  const StringKey: TypeKey := TypeKey("System.String")

  /** The default of the emitted container's `RepeatCount` property (`DefaultRepeatCountMatchesTemplate`). */
  const DefaultRepeatCount: int := 3

  /** The message of the exception thrown for a type without a builder. */
  function MissingBuilder(t: TypeKey): DatodiaException
  {
    DatodiaException("No resolver registered for type '" + t.name + "'.")
  }

  /**
    `Create<T>()`: the factory registered for `T`, invoked once, when there is
    one (`TryGetValue`); the `DatodiaException` otherwise. The map is only read.
   */
  function Create<F, V>(typeBuilders: map<TypeKey, F>, t: TypeKey, invoke: (F, nat) -> V, call: nat)
    : (r: Result<V, DatodiaException>)
    ensures r.Success? <==> t in typeBuilders
    ensures r.Success? ==> r.value == invoke(typeBuilders[t], call)
    ensures r.Failure? ==> r.error.message == "No resolver registered for type '" + t.name + "'."
  {
    if t in typeBuilders then Success(invoke(typeBuilders[t], call)) else Failure(MissingBuilder(t))
  }

  // ---------------------------------------------------------------------------
  // The library container

  /** The library container's map: a single entry, for `string`, whose factory makes a new `Guid`'s text. */
  function LibraryTypeBuilders<F>(newGuidText: F): (m: map<TypeKey, F>)
    ensures m.Keys == {StringKey}
    ensures m[StringKey] == newGuidText
  {
    map[StringKey := newGuidText]
  }

  /** A fresh library container creates strings and nothing else; for any other type it throws. */
  lemma {:induction false} LibraryCreate<F, V>(newGuidText: F, t: TypeKey, invoke: (F, nat) -> V, call: nat)
    ensures Create(LibraryTypeBuilders(newGuidText), t, invoke, call).Success? <==> t == StringKey
    ensures t == StringKey ==> Create(LibraryTypeBuilders(newGuidText), t, invoke, call) == Success(invoke(newGuidText, call))
    ensures t != StringKey ==> Create(LibraryTypeBuilders(newGuidText), t, invoke, call) == Failure(MissingBuilder(t))
  {
  }

  // ---------------------------------------------------------------------------
  // The emitted container

  /** The emitted container's state: its dispatch map and its `RepeatCount`. */
  datatype Container<F> = Container(typeBuilders: map<TypeKey, F>, repeatCount: int)

  /**
    A factory of the emitted map: the `Create` method of the static builder field
    with this name, or a delegate handed to `Register`, told apart by a tag.
   */
  datatype Factory = BuilderField(instanceName: string) | Registered(tag: nat)

  /** `Register<T>(builder)`: the entry for `T` is set to `builder`, added or overwritten. */
  function Register<F>(c: Container<F>, t: TypeKey, builder: F): (r: Container<F>)
    ensures r.typeBuilders.Keys == c.typeBuilders.Keys + {t}
    ensures r.typeBuilders[t] == builder
    ensures forall u | u in c.typeBuilders && u != t :: r.typeBuilders[u] == c.typeBuilders[u]
    ensures r.repeatCount == c.repeatCount
  {
    c.(typeBuilders := c.typeBuilders[t := builder])
  }

  /** After `Register<T>(builder)`, `Create<T>()` invokes `builder`, whatever was registered before. */
  lemma {:induction false} RegisterThenCreate<F, V>(c: Container<F>, t: TypeKey, builder: F, invoke: (F, nat) -> V, call: nat)
    ensures Create(Register(c, t, builder).typeBuilders, t, invoke, call) == Success(invoke(builder, call))
  {
  }

  /** `Register<T>` changes nothing about creating any other type. */
  lemma {:induction false} RegisterKeepsOthers<F, V>(c: Container<F>, t: TypeKey, builder: F, u: TypeKey, invoke: (F, nat) -> V, call: nat)
    requires u != t
    ensures Create(Register(c, t, builder).typeBuilders, u, invoke, call) == Create(c.typeBuilders, u, invoke, call)
  {
  }

  /**
    `CreateMany<T>()`, enumerated to the end: `RepeatCount` calls of `Create<T>()`,
    in order, none when `RepeatCount` is not positive. The first call that throws
    ends the enumeration with its exception.
   */
  method CreateMany<F, V>(c: Container<F>, t: TypeKey, invoke: (F, nat) -> V, call: nat)
    returns (r: Result<seq<V>, DatodiaException>)
    ensures c.repeatCount <= 0 ==> r == Success([])
    ensures c.repeatCount > 0 && t !in c.typeBuilders ==> r == Failure(MissingBuilder(t))
    ensures t in c.typeBuilders ==>
      && r.Success?
      && |r.value| == (if c.repeatCount > 0 then c.repeatCount else 0)
      && forall i | 0 <= i < |r.value| :: Create(c.typeBuilders, t, invoke, call + i) == Success(r.value[i])
  {
    var results: seq<V> := [];
    var i := 0;
    while i < c.repeatCount
      invariant 0 <= i
      invariant c.repeatCount > 0 ==> i <= c.repeatCount
      invariant c.repeatCount <= 0 ==> i == 0
      invariant |results| == i
      invariant i > 0 ==> t in c.typeBuilders
      invariant forall j | 0 <= j < i :: Create(c.typeBuilders, t, invoke, call + j) == Success(results[j])
      decreases c.repeatCount - i
    {
      var created := Create(c.typeBuilders, t, invoke, call + i);
      if created.Failure? {
        return Failure(created.error);
      }
      results := results + [created.value];
      i := i + 1;
    }
    return Success(results);
  }

  /** The `(type text, field name)` pair each definition contributes to the dictionary initializer. */
  function MapEntryPairs(ds: seq<TypeBuilderDefinition>): seq<(string, string)>
  {
    seq(|ds|, i requires 0 <= i < |ds| => (ds[i].fullTypeName, InstanceName(ds[i])))
  }

  /** The keys `typeof` gives for the entries' type texts, in order. */
  function EntryKeys(entries: seq<(string, string)>, resolve: string -> TypeKey): seq<TypeKey>
  {
    seq(|entries|, i requires 0 <= i < |entries| => resolve(entries[i].0))
  }

  /** No key occurs twice. */
  predicate DistinctKeys(keys: seq<TypeKey>)
  {
    forall i, j | 0 <= i < j < |keys| :: keys[i] != keys[j]
  }

  /**
    The dictionary's collection initializer: one `Add` per entry, in order. `Add`
    throws on a key already present, so the initializer fails with the first
    repeated key, and then the container cannot be constructed. `resolve` is
    what `typeof` makes of a type's text: `string` and `System.String` may name
    the same type.
   */
  function DictionaryInitializer(entries: seq<(string, string)>, resolve: string -> TypeKey)
    : (r: Result<map<TypeKey, Factory>, TypeKey>)
    ensures r.Success? ==> forall i | 0 <= i < |entries| ::
      resolve(entries[i].0) in r.value && r.value[resolve(entries[i].0)] == BuilderField(entries[i].1)
    ensures r.Success? ==> forall k | k in r.value :: k in EntryKeys(entries, resolve)
    ensures r.Failure? ==> r.error in EntryKeys(entries, resolve)
    decreases |entries|
  {
    if |entries| == 0 then Success(map[])
    else
      var previous := entries[..|entries| - 1];
      var last := entries[|entries| - 1];
      assert EntryKeys(entries, resolve) == EntryKeys(previous, resolve) + [resolve(last.0)];
      match DictionaryInitializer(previous, resolve)
      case Failure(key) => Failure(key)
      case Success(m) =>
        var key := resolve(last.0);
        if key in m then Failure(key) else Success(m[key := BuilderField(last.1)])
  }

  /** The keys of the last entry and of those before it. */
  lemma {:induction false} EntryKeysSplit(entries: seq<(string, string)>, resolve: string -> TypeKey)
    requires |entries| > 0
    ensures EntryKeys(entries, resolve)
         == EntryKeys(entries[..|entries| - 1], resolve) + [resolve(entries[|entries| - 1].0)]
  {
  }

  /** The initializer completes exactly when no two entries resolve to the same type. */
  lemma {:induction false} InitializerSucceedsIffDistinct(entries: seq<(string, string)>, resolve: string -> TypeKey)
    ensures DictionaryInitializer(entries, resolve).Success? <==> DistinctKeys(EntryKeys(entries, resolve))
    decreases |entries|
  {
    if |entries| > 0 {
      var previous := entries[..|entries| - 1];
      var keys := EntryKeys(entries, resolve);
      var n := |entries| - 1;
      EntryKeysSplit(entries, resolve);
      InitializerSucceedsIffDistinct(previous, resolve);
      var r := DictionaryInitializer(previous, resolve);
      if r.Success? {
        var key := resolve(entries[n].0);
        if key in r.value {
          var i :| 0 <= i < |EntryKeys(previous, resolve)| && EntryKeys(previous, resolve)[i] == key;
          assert keys[i] == keys[n];
        } else {
          forall i | 0 <= i < n
            ensures keys[i] != keys[n]
          {
            assert resolve(previous[i].0) in r.value;
          }
        }
      } else {
        assert !DistinctKeys(EntryKeys(previous, resolve));
        var i, j :| 0 <= i < j < n && EntryKeys(previous, resolve)[i] == EntryKeys(previous, resolve)[j];
        assert keys[i] == keys[j];
      }
    }
  }

  /**
    The container `GenerateContainer` emits, freshly constructed: its map holds
    the entries of the rendered map block, and `RepeatCount` is 3; or the key
    whose second `Add` makes construction throw. This models the constructor
    only, taking the rendered text to compile; C# compilation is not modelled.
   */
  function EmittedContainer(typeBuilders: seq<Option<TypeBuilderDefinition>>, resolve: string -> TypeKey)
    : (r: Result<Container<Factory>, TypeKey>)
    ensures r.Success? ==> r.value.repeatCount == DefaultRepeatCount
  {
    match DictionaryInitializer(MapEntryPairs(Defined(AllTypeBuilders(typeBuilders))), resolve)
    case Failure(key) => Failure(key)
    case Success(m) => Success(Container(m, DefaultRepeatCount))
  }

  /** The template's `RepeatCount` property is initialised with the single digit `DefaultRepeatCount`. */
  lemma DefaultRepeatCountMatchesTemplate()
    ensures Text.EndsWith(Template.RepeatCountProperty, " = 3;\n")
    ensures Template.RepeatCountProperty[|Template.RepeatCountProperty| - 3] as int - '0' as int == DefaultRepeatCount
  {
  }

  /**
    Taking the rendered text to compile, the emitted container can be
    constructed exactly when no two builders' types resolve to the same `Type`.
   */
  lemma {:induction false} EmittedContainerSucceedsIff(typeBuilders: seq<Option<TypeBuilderDefinition>>, resolve: string -> TypeKey)
    ensures EmittedContainer(typeBuilders, resolve).Success?
        <==> DistinctKeys(EntryKeys(MapEntryPairs(Defined(AllTypeBuilders(typeBuilders))), resolve))
  {
    InitializerSucceedsIffDistinct(MapEntryPairs(Defined(AllTypeBuilders(typeBuilders))), resolve);
  }

  /**
    In a constructed emitted container, `Create` for the type of any builder
    invokes that builder's static field.
   */
  lemma {:induction false} EmittedCreate<V>(
    typeBuilders: seq<Option<TypeBuilderDefinition>>, resolve: string -> TypeKey,
    d: TypeBuilderDefinition, invoke: (Factory, nat) -> V, call: nat)
    requires EmittedContainer(typeBuilders, resolve).Success?
    requires d in Defined(AllTypeBuilders(typeBuilders))
    ensures Create(EmittedContainer(typeBuilders, resolve).value.typeBuilders, resolve(d.fullTypeName), invoke, call)
         == Success(invoke(BuilderField(InstanceName(d)), call))
  {
    var ds := Defined(AllTypeBuilders(typeBuilders));
    var i :| 0 <= i < |ds| && ds[i] == d;
    assert MapEntryPairs(ds)[i] == (d.fullTypeName, InstanceName(d));
  }

  /**
    The entries the initializer adds are the ones the rendered map block spells:
    each map line reads back as the type text and field name of its entry.
   */
  lemma {:induction false} RenderedEntriesAreInitializerEntries(ds: seq<TypeBuilderDefinition>)
    requires RenderableDefinitions(ds)
    ensures |MapEntryLines(ds)| == |MapEntryPairs(ds)|
    ensures forall i | 0 <= i < |ds| :: ParseMapEntry(MapEntryLines(ds)[i]) == Some(MapEntryPairs(ds)[i])
  {
    forall i | 0 <= i < |ds|
      ensures ParseMapEntry(MapEntryLines(ds)[i]) == Some(MapEntryPairs(ds)[i])
    {
      ParseFormatAsMapEntry(ds[i]);
    }
  }

  /**
    A record declared in two parts is collected twice. The rendered container
    then declares the same static field on two identical instance lines and
    spells two map entries with the same type text; C# rejects the repeated
    field, so this container is never built. The initializer, for its part,
    would throw at the second `Add` of that type, whatever `typeof` resolves to.
   */
  lemma {:induction false} PartialRecordRepeatsDeclarations(declared: Symbol, resolve: string -> TypeKey)
    requires declared.kind == NamedType
    ensures var ds := Defined(AllTypeBuilders(Combined([], [declared, declared])));
      |ds| >= 2
      && InstanceLines(ds)[|ds| - 2] == InstanceLines(ds)[|ds| - 1] == FormatAsInstance(RecordBuilder(declared).value)
      && MapEntryPairs(ds)[|ds| - 2] == MapEntryPairs(ds)[|ds| - 1]
    ensures DictionaryInitializer(MapEntryPairs(Defined(AllTypeBuilders(Combined([], [declared, declared])))), resolve).Failure?
  {
    var d := RecordBuilder(declared).value;
    NoDeduplication(declared);
    var ds := Defined(AllTypeBuilders(Combined([], [declared, declared])));
    var n := |ds|;
    assert ds[n - 2] == d && ds[n - 1] == d;
    assert InstanceLines(ds)[n - 2] == FormatAsInstance(d);
    var keys := EntryKeys(MapEntryPairs(ds), resolve);
    assert keys[n - 2] == keys[n - 1];
    InitializerSucceedsIffDistinct(MapEntryPairs(ds), resolve);
  }

  /** With distinct keys the dictionary holds one entry per definition: no `Add` is lost. */
  lemma {:induction false} InitializerSize(entries: seq<(string, string)>, resolve: string -> TypeKey)
    requires DistinctKeys(EntryKeys(entries, resolve))
    ensures DictionaryInitializer(entries, resolve).Success?
    ensures |DictionaryInitializer(entries, resolve).value| == |entries|
    decreases |entries|
  {
    InitializerSucceedsIffDistinct(entries, resolve);
    if |entries| > 0 {
      var n := |entries| - 1;
      var previous := entries[..n];
      var keys := EntryKeys(entries, resolve);
      EntryKeysSplit(entries, resolve);
      assert DistinctKeys(EntryKeys(previous, resolve)) by {
        forall i, j | 0 <= i < j < n
          ensures EntryKeys(previous, resolve)[i] != EntryKeys(previous, resolve)[j]
        {
          assert keys[i] != keys[j];
        }
      }
      InitializerSize(previous, resolve);
      var m := DictionaryInitializer(previous, resolve).value;
      var key := resolve(entries[n].0);
      assert DictionaryInitializer(entries, resolve) == Success(m[key := BuilderField(entries[n].1)]);
    }
  }

  /**
    The single-record compilation `public sealed record Person;`: when `typeof`
    tells `string`, `System.Guid`, `bool` and `Person` apart, the emitted
    container has exactly four entries, and creating a `Person` invokes the
    field of `Kwality.Datodia.Builders.Generated.PersonTypeBuilder`.
   */
  lemma {:induction false} PersonContainer<V>(person: Symbol, resolve: string -> TypeKey, invoke: (Factory, nat) -> V, call: nat)
    requires person == Symbol(NamedType, "Person", "Person", GlobalNamespace, NotNested, None)
    requires resolve("string") != resolve("System.Guid") && resolve("string") != resolve("bool")
    requires resolve("System.Guid") != resolve("bool")
    requires resolve("Person") !in {resolve("string"), resolve("System.Guid"), resolve("bool")}
    ensures EmittedContainer(Combined([], [person]), resolve).Success?
    ensures |EmittedContainer(Combined([], [person]), resolve).value.typeBuilders| == 4
    ensures Create(EmittedContainer(Combined([], [person]), resolve).value.typeBuilders, resolve("Person"), invoke, call)
         == Success(invoke(BuilderField(InstanceName(TypeBuilderDefinition("Person", "PersonTypeBuilder", "Kwality.Datodia.Builders.Generated", []))), call))
  {
    var d := TypeBuilderDefinition("Person", "PersonTypeBuilder", "Kwality.Datodia.Builders.Generated", []);
    var typeBuilders := Combined([], [person]);
    PersonScenario(person);
    SystemCatalog();
    var entries := MapEntryPairs(SystemTypeBuilders + [d]);
    var keys := EntryKeys(entries, resolve);
    assert keys == [resolve("string"), resolve("System.Guid"), resolve("bool"), resolve("Person")];
    InitializerSize(entries, resolve);
    assert d in Defined(AllTypeBuilders(typeBuilders)) by {
      assert (SystemTypeBuilders + [d])[3] == d;
    }
    EmittedCreate(typeBuilders, resolve, d, invoke, call);
  }
}

=== FILE: symbols.dfy ===
/**
  The host compiler's symbols, reduced to what the generator reads from them,
  and `GetFullNamespace` (SymbolExtensions.cs).
 */
module Symbols {
  import opened Wrappers
  import opened Text

  /**
    A symbol's containing namespace: `NoNamespace` is a `null` reference, and a
    named namespace points at its own containing namespace, ending in the global one.
   */
  datatype NamespaceSymbol =
    | NoNamespace
    | GlobalNamespace
    | NamespaceNamed(name: string, containingNamespace: NamespaceSymbol)

  /** A symbol's containing type, innermost first; `NotNested` is a `null` reference. */
  datatype ContainingType =
    | NotNested
    | NestedIn(name: string, containingType: ContainingType)

  /** Whether the symbol is an `INamedTypeSymbol`. */
  datatype SymbolKind = NamedType | OtherSymbol

  /**
    A declared symbol as the generator sees it. `displayString` is what
    `ToDisplayString()` returns for it; `typeBuilderArgument` is the display string
    of `T` when the symbol implements `ITypeBuilder<T>`, and `None` otherwise.
   */
  datatype Symbol = Symbol(
    kind: SymbolKind,
    name: string,
    displayString: string,
    containingNamespace: NamespaceSymbol,
    containingType: ContainingType,
    typeBuilderArgument: Option<string>)

  /** Namespace names, outermost first, up to the global namespace or a missing one. */
  function NamespacePath(ns: NamespaceSymbol): seq<string>
  {
    match ns
    case NamespaceNamed(name, outer) => NamespacePath(outer) + [name]
    case _ => []
  }

  /** Containing-type names, outermost first. */
  function TypePath(t: ContainingType): seq<string>
  {
    match t
    case NestedIn(name, outer) => TypePath(outer) + [name]
    case NotNested => []
  }

  predicate IsGlobalOrMissing(ns: NamespaceSymbol)
  {
    ns.NoNamespace? || ns.GlobalNamespace?
  }

  /**
    Reference definition of `GetFullNamespace`: null for a symbol whose containing
    namespace is missing or global (whatever types it is nested in), otherwise the
    dotted namespace path followed by the dotted containing-type path.
   */
  function FullNamespace(s: Symbol): Option<string>
  {
    if IsGlobalOrMissing(s.containingNamespace) then None
    else
      var fullNamespace := Join(".", NamespacePath(s.containingNamespace));
      var nestedTypes := Join(".", TypePath(s.containingType));
      Some(if nestedTypes == "" then fullNamespace else fullNamespace + "." + nestedTypes)
  }

  /**
    `GetFullNamespace` as the source computes it: two walks that push each name
    onto a stack, innermost first. A C# `Stack<T>` enumerates top first, so the
    stacks are kept here as sequences whose first element is the top.
   */
  method GetFullNamespace(s: Symbol) returns (r: Option<string>)
    ensures r == FullNamespace(s)
  {
    var namespaceSymbol := s.containingNamespace;
    if namespaceSymbol.NoNamespace? || namespaceSymbol.GlobalNamespace? {
      return None;
    }

    var namespaceParts: seq<string> := [];
    while namespaceSymbol.NamespaceNamed?
      invariant NamespacePath(s.containingNamespace) == NamespacePath(namespaceSymbol) + namespaceParts
      decreases namespaceSymbol
    {
      namespaceParts := [namespaceSymbol.name] + namespaceParts;
      namespaceSymbol := namespaceSymbol.containingNamespace;
    }
    assert NamespacePath(s.containingNamespace) == namespaceParts;

    var typeParts: seq<string> := [];
    var containingType := s.containingType;
    while containingType.NestedIn?
      invariant TypePath(s.containingType) == TypePath(containingType) + typeParts
      decreases containingType
    {
      typeParts := [containingType.name] + typeParts;
      containingType := containingType.containingType;
    }
    assert TypePath(s.containingType) == typeParts;

    var fullNamespace := Join(".", namespaceParts);
    var nestedTypes := Join(".", typeParts);
    r := Some(if nestedTypes == "" then fullNamespace else fullNamespace + "." + nestedTypes);
  }

  // ---------------------------------------------------------------------------
  // Symbols as declared in source text

  /** The namespace symbol that `namespace A.B.C;` declares, for `segments == ["A", "B", "C"]`. */
  function DeclaredNamespace(segments: seq<string>): NamespaceSymbol
  {
    if |segments| == 0 then GlobalNamespace
    else NamespaceNamed(segments[|segments| - 1], DeclaredNamespace(segments[..|segments| - 1]))
  }

  /** The containing-type chain of a declaration nested in `outer`, outermost first. */
  function DeclaredContainingType(outer: seq<string>): ContainingType
  {
    if |outer| == 0 then NotNested
    else NestedIn(outer[|outer| - 1], DeclaredContainingType(outer[..|outer| - 1]))
  }

  /** Walking a declared namespace outwards and reversing gives back its segments, outermost first. */
  lemma {:induction false} NamespacePathOfDeclared(segments: seq<string>)
    ensures NamespacePath(DeclaredNamespace(segments)) == segments
    decreases |segments|
  {
    if |segments| > 0 {
      NamespacePathOfDeclared(segments[..|segments| - 1]);
      assert segments == segments[..|segments| - 1] + [segments[|segments| - 1]];
    }
  }

  /** Walking the containing types outwards and reversing gives them back outermost first. */
  lemma {:induction false} TypePathOfDeclared(outer: seq<string>)
    ensures TypePath(DeclaredContainingType(outer)) == outer
    decreases |outer|
  {
    if |outer| > 0 {
      TypePathOfDeclared(outer[..|outer| - 1]);
      assert outer == outer[..|outer| - 1] + [outer[|outer| - 1]];
    }
  }

  /**
    A type declared in the global namespace has a null full namespace, even when
    it is nested inside other types.
   */
  lemma {:induction false} GlobalNamespaceIsNull(s: Symbol, outer: seq<string>)
    requires s.containingNamespace == DeclaredNamespace([]) || s.containingNamespace.NoNamespace?
    requires s.containingType == DeclaredContainingType(outer)
    ensures FullNamespace(s) == None
  {
  }

  /**
    For a type declared inside `namespace A.B` and nested in types `X.Y` (outermost
    first), the full namespace is `A.B.X.Y`; when it is not nested it is `A.B`.
   */
  lemma {:induction false} FullNamespaceOfDeclared(s: Symbol, segments: seq<string>, outer: seq<string>)
    requires |segments| > 0
    requires s.containingNamespace == DeclaredNamespace(segments)
    requires s.containingType == DeclaredContainingType(outer)
    requires |outer| > 0 ==> outer[0] != ""
    ensures |outer| == 0 ==> FullNamespace(s) == Some(Join(".", segments))
    ensures FullNamespace(s) == Some(Join(".", segments + outer))
  {
    NamespacePathOfDeclared(segments);
    TypePathOfDeclared(outer);
    if |outer| == 0 {
      assert segments + outer == segments;
    } else {
      JoinStartsWithFirst(".", outer);
      JoinAppend(".", segments, outer);
    }
  }

  /** The symbol's own name, display string and interfaces play no part: only its containers do. */
  lemma {:induction false} OwnNameUnused(s: Symbol, t: Symbol)
    requires s.containingNamespace == t.containingNamespace
    requires s.containingType == t.containingType
    ensures FullNamespace(s) == FullNamespace(t)
  {
  }
}

=== FILE: template.dfy ===
/**
  The container template of `ContainerGenerator` (ContainerGenerator.cs): the
  text around the two placeholder lines, and the placeholders themselves. The
  emitted `Container` class declares the builder instances and the dispatch map
  at the placeholders, then `RepeatCount`, `Create`, `CreateMany` and
  `Register`.
 */
module Template {
  import opened Text

  const InstancesMarker: string := "[[#[[TYPE_BUILDERS_INSTANCES]]#]]"
  const MapMarker: string := "[[#[[TYPE_BUILDERS_MAP]]#]]"

  /** Lines 1-13 of the template, up to the class's opening brace. */
  const ContainerHead: string := HeadUsings + HeadClass

  /** The template after the two placeholder lines: `RepeatCount`, `Create` and `CreateMany`, `Register`. */
  const ContainerTail: string := RepeatCountPart + CreatePart + RegisterPart

  const RepeatCountPart: string := RepeatCountDoc + RepeatCountProperty
  const CreatePart: string := CreateLookup + CreateThrow + CreateManyPart
  const RegisterPart: string := RegisterSummary + RegisterParams + RegisterBody

  /** The template: the head, one line per placeholder, then the tail. */
  const ContainerTemplate: string := Layout(ContainerHead, InstancesMarker, MapMarker, ContainerTail)

  // Each template line below is written as several short literals, which keeps
  // the character-by-character facts about it cheap to prove; every part has
  // its own lemma that `#`, the placeholders' distinctive character, is absent.

  /** Template lines 1-7: the namespace and the `using` directives. */
  const HeadUsings: string :=
    "namespace " + "Kwality." + "Datodia;\n" +
    "\n" +
    "using System;\n" +
    "using System." + "Collections." + "Generic;\n" +
    "\n" +
    "using Kwality." + "Datodia." + "Abstractions;\n" +
    "using Kwality." + "Datodia." + "Exceptions;\n"

  /** Template lines 8-13: the class's documentation, declaration and opening brace. */
  const HeadClass: string :=
    "\n" +
    "/// <summary>\n" +
    "///     " + "Container used " + "to create " + "objects.\n" +
    "/// </summary>\n" +
    "public sealed " + "class Container " + ": IContainer\n" +
    "{"

  /** The documentation of `RepeatCount`. */
  const RepeatCountDoc: string :=
    "    /// " + "<summary>\n" +
    "    ///     The " + "total number of " + "elements to " + "create when " + "using <see " + "cref=\"CreateMany" + "{T}\" />.\n" +
    "    /// " + "</summary>\n" +
    "    /// " + "<remarks>Default" + "s to 3." + "</remarks>\n"

  /** `RepeatCount`, defaulting to 3. */
  const RepeatCountProperty: string :=
    "    public int " + "RepeatCount{ " + "get; set; } = " + "3;\n"

  /** `Create`: the lookup in the map. */
  const CreateLookup: string :=
    "\n" +
    "    /// " + "<inheritdoc />\n" +
    "    public T " + "Create<T>()\n" +
    "    {\n" +
    "        if (" + "this." + "typeBuilders." + "TryGetValue(" + "typeof(T), out " + "var builder)) " + "return (" + "T)builder(" + "this);\n"

  /** `Create`: the exception for a type without a builder. */
  const CreateThrow: string :=
    "\n" +
    "        throw " + "new " + "DatodiaException" + "($\"No resolver " + "registered for " + "type '{typeof(" + "T)}'.\");\n" +
    "    }\n" +
    "\n"

  /** `CreateMany`: `RepeatCount` calls of `Create`. */
  const CreateManyPart: string :=
    "    /// " + "<inheritdoc />\n" +
    "    public " + "IEnumerable<T> " + "CreateMany<T>()\n" +
    "    {\n" +
    "        for (" + "var i = 0; i < " + "this." + "RepeatCount; " + "i++) yield " + "return this." + "Create<T>();\n" +
    "    }\n" +
    "\n"

  /** The summary of `Register`. */
  const RegisterSummary: string :=
    "    /// " + "<summary>\n" +
    "    ///     " + "Register a " + "custom builder " + "that replaces " + "the built-in " + "builder for T.\n" +
    "    /// " + "</summary>\n"

  /** The parameter documentation of `Register`. */
  const RegisterParams: string :=
    "    /// <param " + "name=\"builder\">T" + "he builder used " + "to create " + "instances of T." + "</param>\n" +
    "    /// " + "<typeparam " + "name=\"T\">The " + "type the " + "builder can " + "create." + "</typeparam>\n"

  /** `Register`: the map entry for `T` is overwritten; then the class's closing brace. */
  const RegisterBody: string :=
    "    public void " + "Register<T>(" + "Func<IContainer," + " object> " + "builder)\n" +
    "    {\n" +
    "        this." + "typeBuilders[typ" + "eof(T)] = " + "builder;\n" +
    "    }\n" +
    "}"

  /** Both placeholders carry `#` and are single lines; the map placeholder is the shorter. */
  lemma MarkerFacts()
    ensures '#' in InstancesMarker && '#' in MapMarker
    ensures '\n' !in InstancesMarker && '\n' !in MapMarker
    ensures |MapMarker| < |InstancesMarker|
  {
    assert InstancesMarker[2] == '#' && MapMarker[2] == '#';
  }

  lemma HeadUsingsLacksHash()
    ensures '#' !in HeadUsings
  {
  }

  lemma HeadClassLacksHash()
    ensures '#' !in HeadClass
  {
  }

  lemma RepeatCountDocLacksHash()
    ensures '#' !in RepeatCountDoc
  {
  }

  lemma RepeatCountPropertyLacksHash()
    ensures '#' !in RepeatCountProperty
  {
  }

  lemma CreateLookupLacksHash()
    ensures '#' !in CreateLookup
  {
  }

  lemma CreateThrowLacksHash()
    ensures '#' !in CreateThrow
  {
  }

  lemma CreateManyPartLacksHash()
    ensures '#' !in CreateManyPart
  {
  }

  lemma RegisterSummaryLacksHash()
    ensures '#' !in RegisterSummary
  {
  }

  lemma RegisterParamsLacksHash()
    ensures '#' !in RegisterParams
  {
  }

  lemma RegisterBodyLacksHash()
    ensures '#' !in RegisterBody
  {
  }

  lemma RepeatCountPartLacksHash()
    ensures '#' !in RepeatCountPart
  {
    RepeatCountDocLacksHash();
    RepeatCountPropertyLacksHash();
  }

  lemma CreatePartLacksHash()
    ensures '#' !in CreatePart
  {
    CreateLookupLacksHash();
    CreateThrowLacksHash();
    CreateManyPartLacksHash();
  }

  lemma RegisterPartLacksHash()
    ensures '#' !in RegisterPart
  {
    RegisterSummaryLacksHash();
    RegisterParamsLacksHash();
    RegisterBodyLacksHash();
  }

  /** Neither the head nor the tail of the template contains `#`. */
  lemma TemplateLacksHash()
    ensures '#' !in ContainerHead
    ensures '#' !in ContainerTail
  {
    HeadUsingsLacksHash();
    HeadClassLacksHash();
    RepeatCountPartLacksHash();
    CreatePartLacksHash();
    RegisterPartLacksHash();
  }
}

=== FILE: text.dfy ===
/**
  The handful of .NET string operations the generator relies on, written out
  over `seq<char>`: `string.Join`, ordinal `string.Replace`, `StringBuilder.AppendLine`,
  and the searches used to read generated lines back.
 */
module Text {

  /** `Environment.NewLine`, fixed to the Unix line terminator. */
  const NewLine: string := "\n"

  /** `string.Join(sep, parts)`. */
  function Join(sep: string, parts: seq<string>): string
  {
    if |parts| == 0 then ""
    else if |parts| == 1 then parts[0]
    else parts[0] + sep + Join(sep, parts[1..])
  }

  predicate StartsWith(s: string, prefix: string)
  {
    |prefix| <= |s| && s[..|prefix|] == prefix
  }

  predicate EndsWith(s: string, suffix: string)
  {
    |suffix| <= |s| && s[|s| - |suffix|..] == suffix
  }

  /** True when `pattern` occurs somewhere in `s`. */
  predicate Contains(s: string, pattern: string)
    decreases |s|
  {
    StartsWith(s, pattern) || (|s| > 0 && Contains(s[1..], pattern))
  }

  /**
    `s.Replace(pattern, replacement)` with ordinal comparison: occurrences are
    found left to right, never overlap, and replaced text is not scanned again.
    .NET throws on an empty pattern, hence the precondition.
   */
  function Replace(s: string, pattern: string, replacement: string): string
    requires |pattern| > 0
    decreases |s|
  {
    if |s| == 0 then ""
    else if StartsWith(s, pattern) then replacement + Replace(s[|pattern|..], pattern, replacement)
    else [s[0]] + Replace(s[1..], pattern, replacement)
  }

  /** Index of the first `c` in `s`, or `|s|` when there is none. */
  function IndexOf(s: string, c: char): (i: nat)
    ensures i <= |s|
    ensures i < |s| ==> s[i] == c
    ensures c !in s[..i]
  {
    if |s| == 0 then 0
    else if s[0] == c then 0
    else 1 + IndexOf(s[1..], c)
  }

  /** Index of the last `c` in `s`, or `-1` when there is none. */
  function LastIndexOf(s: string, c: char): (i: int)
    ensures -1 <= i < |s|
    ensures 0 <= i ==> s[i] == c
    ensures c !in s[i + 1..]
  {
    if |s| == 0 then -1
    else if s[|s| - 1] == c then |s| - 1
    else LastIndexOf(s[..|s| - 1], c)
  }

  /** The text a `StringBuilder` holds after one `AppendLine` per element of `lines`. */
  function Lines(lines: seq<string>): string
  {
    if |lines| == 0 then "" else lines[0] + NewLine + Lines(lines[1..])
  }

  /** Reads a text of newline-terminated lines back into its lines. */
  function SplitLines(s: string): seq<string>
    decreases |s|
  {
    if |s| == 0 then []
    else
      var i := IndexOf(s, '\n');
      if i == |s| then [s] else [s[..i]] + SplitLines(s[i + 1..])
  }

  predicate SingleLine(line: string)
  {
    '\n' !in line
  }

  // ---------------------------------------------------------------------------
  // Searching

  lemma {:induction false} IndexOfAfterFree(a: string, c: char, b: string)
    requires c !in a
    ensures IndexOf(a + [c] + b, c) == |a|
    decreases |a|
  {
    if |a| > 0 {
      assert (a + [c] + b)[1..] == a[1..] + [c] + b;
      IndexOfAfterFree(a[1..], c, b);
    } else {
      assert (a + [c] + b)[0] == c;
    }
  }

  /** Splitting `a + b` at the first `c`, when `c` does not occur in `a` and `b` starts with it. */
  lemma {:induction false} SplitAtFree(a: string, b: string, c: char)
    requires c !in a
    requires |b| > 0 && b[0] == c
    ensures IndexOf(a + b, c) == |a|
    ensures (a + b)[..|a|] == a
    ensures (a + b)[|a|..] == b
    ensures (a + b)[|a| + 1..] == b[1..]
  {
    assert a + b == a + [c] + b[1..];
    IndexOfAfterFree(a, c, b[1..]);
  }

  lemma {:induction false} LastIndexOfBeforeFree(a: string, c: char, b: string)
    requires c !in b
    ensures LastIndexOf(a + [c] + b, c) == |a|
    decreases |b|
  {
    if |b| > 0 {
      var s := a + [c] + b;
      assert s[|s| - 1] == b[|b| - 1];
      assert s[..|s| - 1] == a + [c] + b[..|b| - 1];
      LastIndexOfBeforeFree(a, c, b[..|b| - 1]);
    } else {
      assert a + [c] + b == a + [c];
    }
  }

  /** Splitting `a + [c] + b` at the last `c`, when `c` does not occur in `b`. */
  lemma {:induction false} SplitAtLastFree(a: string, c: char, b: string)
    requires c !in b
    ensures LastIndexOf(a + [c] + b, c) == |a|
    ensures (a + [c] + b)[..|a|] == a
    ensures (a + [c] + b)[|a| + 1..] == b
  {
    LastIndexOfBeforeFree(a, c, b);
  }

  lemma {:induction false} EndsWithAppend(s: string, suffix: string)
    ensures EndsWith(s + suffix, suffix)
    ensures (s + suffix)[..|s|] == s
  {
    assert (s + suffix)[|s|..] == suffix;
  }

  // ---------------------------------------------------------------------------
  // Lines

  /** Splitting the text built by `AppendLine` gives back exactly the appended lines. */
  lemma {:induction false} SplitLinesOfLines(lines: seq<string>)
    requires forall i | 0 <= i < |lines| :: SingleLine(lines[i])
    ensures SplitLines(Lines(lines)) == lines
  {
    if |lines| > 0 {
      var rest := Lines(lines[1..]);
      assert Lines(lines) == lines[0] + ['\n'] + rest;
      IndexOfAfterFree(lines[0], '\n', rest);
      assert (lines[0] + ['\n'] + rest)[..|lines[0]|] == lines[0];
      assert (lines[0] + ['\n'] + rest)[|lines[0]| + 1..] == rest;
      SplitLinesOfLines(lines[1..]);
    }
  }

  lemma {:induction false} LinesAppend(a: seq<string>, b: seq<string>)
    ensures Lines(a + b) == Lines(a) + Lines(b)
  {
    if |a| > 0 {
      assert (a + b)[1..] == a[1..] + b;
      LinesAppend(a[1..], b);
    } else {
      assert a + b == b;
    }
  }

  // ---------------------------------------------------------------------------
  // Join

  /** Joining two non-empty lists of segments is joining each and putting the separator between. */
  lemma {:induction false} JoinAppend(sep: string, a: seq<string>, b: seq<string>)
    requires |a| > 0 && |b| > 0
    ensures Join(sep, a + b) == Join(sep, a) + sep + Join(sep, b)
  {
    if |a| > 1 {
      assert (a + b)[1..] == a[1..] + b;
      JoinAppend(sep, a[1..], b);
    } else {
      assert (a + b)[1..] == b;
    }
  }

  /** The joined text starts with the first segment. */
  lemma {:induction false} JoinStartsWithFirst(sep: string, parts: seq<string>)
    requires |parts| > 0
    ensures StartsWith(Join(sep, parts), parts[0])
  {
  }

  // ---------------------------------------------------------------------------
  // Replace

  lemma {:induction false} StartsWithAppend(prefix: string, rest: string)
    requires |prefix| > 0
    ensures StartsWith(prefix + rest, prefix)
    ensures (prefix + rest)[|prefix|..] == rest
  {
    assert (prefix + rest)[..|prefix|] == prefix;
  }

  /** Text with no occurrence of the pattern is left as it is. */
  lemma {:induction false} ReplaceAbsent(s: string, pattern: string, replacement: string)
    requires |pattern| > 0
    requires !Contains(s, pattern)
    ensures Replace(s, pattern, replacement) == s
    decreases |s|
  {
    if |s| > 0 {
      ReplaceAbsent(s[1..], pattern, replacement);
      assert s == [s[0]] + s[1..];
    }
  }

  /** When no occurrence starts inside `a`, replacing in `a + b` copies `a` and continues in `b`. */
  lemma {:induction false} ReplaceSkip(a: string, b: string, pattern: string, replacement: string)
    requires |pattern| > 0
    requires forall i | 0 <= i < |a| :: !StartsWith((a + b)[i..], pattern)
    ensures Replace(a + b, pattern, replacement) == a + Replace(b, pattern, replacement)
    decreases |a|
  {
    if |a| > 0 {
      var s := a + b;
      assert s[0..] == s;
      assert !StartsWith(s, pattern);
      assert Replace(s, pattern, replacement) == [s[0]] + Replace(s[1..], pattern, replacement);
      assert s[1..] == a[1..] + b;
      forall i | 0 <= i < |a[1..]|
        ensures !StartsWith((a[1..] + b)[i..], pattern)
      {
        assert (a[1..] + b)[i..] == s[i + 1..];
      }
      ReplaceSkip(a[1..], b, pattern, replacement);
      assert a == [a[0]] + a[1..];
    } else {
      assert a + b == b;
    }
  }

  /** A prefix without the pattern's first character is copied unchanged. */
  lemma {:induction false} ReplaceSkipFree(a: string, b: string, pattern: string, replacement: string)
    requires |pattern| > 0
    requires pattern[0] !in a
    ensures Replace(a + b, pattern, replacement) == a + Replace(b, pattern, replacement)
  {
    forall i | 0 <= i < |a|
      ensures !StartsWith((a + b)[i..], pattern)
    {
      assert (a + b)[i..][0] == a[i];
    }
    ReplaceSkip(a, b, pattern, replacement);
  }

  /** A prefix in which the pattern does not occur, followed by a character the pattern lacks, is copied unchanged. */
  lemma {:induction false} ReplaceSkipAbsent(a: string, c: char, b: string, pattern: string, replacement: string)
    requires |pattern| > 0
    requires !Contains(a, pattern)
    requires c !in pattern
    ensures Replace(a + [c] + b, pattern, replacement) == a + Replace([c] + b, pattern, replacement)
  {
    var s := a + ([c] + b);
    assert a + [c] + b == s;
    forall i | 0 <= i < |a|
      ensures !StartsWith(s[i..], pattern)
    {
      if i + |pattern| <= |a| {
        if StartsWith(s[i..], pattern) {
          assert s[i..][..|pattern|] == a[i..][..|pattern|];
          ContainsSuffix(a, i, pattern);
        }
      } else {
        var k := |a| - i;
        assert pattern[k] != c;
        assert s[i..][k] == c;
      }
    }
    ReplaceSkip(a, [c] + b, pattern, replacement);
  }

  lemma {:induction false} ContainsSuffix(s: string, i: nat, pattern: string)
    requires i <= |s|
    requires StartsWith(s[i..], pattern)
    ensures Contains(s, pattern)
    decreases i
  {
    if i > 0 {
      assert s[1..][i - 1..] == s[i..];
      ContainsSuffix(s[1..], i - 1, pattern);
    } else {
      assert s[0..] == s;
    }
  }

  /** A text without the pattern's first character is left as it is. */
  lemma {:induction false} ReplaceFree(s: string, pattern: string, replacement: string)
    requires |pattern| > 0
    requires pattern[0] !in s
    ensures Replace(s, pattern, replacement) == s
  {
    ReplaceSkipFree(s, "", pattern, replacement);
    assert s + "" == s;
  }

  /** An occurrence at the front is replaced, and the search resumes right after it. */
  lemma {:induction false} ReplaceHit(pattern: string, b: string, replacement: string)
    requires |pattern| > 0
    ensures Replace(pattern + b, pattern, replacement) == replacement + Replace(b, pattern, replacement)
  {
    StartsWithAppend(pattern, b);
  }

  /** A pattern with a character the text lacks does not occur in it. */
  lemma {:induction false} AbsentByChar(s: string, pattern: string, c: char)
    requires c in pattern && c !in s
    ensures !Contains(s, pattern)
    decreases |s|
  {
    if |s| > 0 {
      AbsentByChar(s[1..], pattern, c);
    }
  }

  /** A pattern longer than the text does not occur in it. */
  lemma {:induction false} AbsentByLength(s: string, pattern: string)
    requires |pattern| > |s|
    ensures !Contains(s, pattern)
    decreases |s|
  {
    if |s| > 0 {
      AbsentByLength(s[1..], pattern);
    }
  }

  // ---------------------------------------------------------------------------
  // Substituting placeholder lines

  /** A template of the container's shape: a head, two lines, and a tail, separated by line breaks. */
  function Layout(head: string, line1: string, line2: string, tail: string): string
  {
    head + ("\n" + (line1 + ("\n" + (line2 + ("\n" + tail)))))
  }

  /** Replacing across a line break: a first part without the pattern, and a pattern without line breaks. */
  lemma {:induction false} ReplaceAcrossLine(a: string, b: string, pattern: string, replacement: string)
    requires |pattern| > 0 && '\n' !in pattern
    requires !Contains(a, pattern)
    ensures Replace(a + ("\n" + b), pattern, replacement) == a + ("\n" + Replace(b, pattern, replacement))
  {
    assert a + ("\n" + b) == a + ['\n'] + b;
    ReplaceSkipAbsent(a, '\n', b, pattern, replacement);
    assert pattern[0] in pattern;
    ReplaceSkipFree("\n", b, pattern, replacement);
  }

  /** Replacing a line that is exactly the pattern, in front of a rest the replacement leaves alone. */
  lemma {:induction false} ReplaceLeadingLine(m: string, tail: string, replacement: string)
    requires |m| > 0 && '\n' !in m
    requires Replace(tail, m, replacement) == tail
    ensures Replace(m + ("\n" + tail), m, replacement) == replacement + ("\n" + tail)
  {
    assert m[0] in m;
    ReplaceSkipFree("\n", tail, m, replacement);
    ReplaceHit(m, "\n" + tail, replacement);
  }

  /** With a character `c` that marks the placeholder lines only, the first substitution replaces the first placeholder line and leaves the rest alone. */
  lemma {:induction false} SubstituteFirst(c: char, head: string, tail: string, m1: string, m2: string, first: string)
    requires |m2| < |m1|
    requires c in m1 && c !in head && c !in tail && '\n' !in m1
    ensures Replace(Layout(head, m1, m2, tail), m1, first) == Layout(head, first, m2, tail)
  {
    var rest := m2 + ("\n" + tail);
    AbsentByChar(head, m1, c);
    ReplaceAcrossLine(head, m1 + ("\n" + rest), m1, first);
    AbsentByLength(m2, m1);
    AbsentByChar(tail, m1, c);
    ReplaceAcrossLine(m2, tail, m1, first);
    ReplaceAbsent(tail, m1, first);
    ReplaceLeadingLine(m1, rest, first);
  }

  /** The second substitution replaces the second placeholder line, provided the first block does not contain it. */
  lemma {:induction false} SubstituteSecond(c: char, head: string, tail: string, m2: string, first: string, second: string)
    requires |m2| > 0
    requires c in m2 && c !in head && c !in tail && '\n' !in m2
    requires !Contains(first, m2)
    ensures Replace(Layout(head, first, m2, tail), m2, second) == Layout(head, first, second, tail)
  {
    var rest := m2 + ("\n" + tail);
    AbsentByChar(head, m2, c);
    ReplaceAcrossLine(head, first + ("\n" + rest), m2, second);
    ReplaceAcrossLine(first, rest, m2, second);
    AbsentByChar(tail, m2, c);
    ReplaceAbsent(tail, m2, second);
    ReplaceLeadingLine(m2, tail, second);
  }
}

=== FILE: wrappers.dfy ===
/** Option and Result, standing in for C#'s nullable references and thrown exceptions. */
module Wrappers {

  /** `None` plays the part of a C# `null`. */
  datatype Option<+T> = None | Some(value: T)

  /** `Failure` plays the part of an exception thrown by the operation. */
  datatype Result<+R, +E> = Success(value: R) | Failure(error: E)
}
